=== FILE: README.md ===
# oh_sheet_its_json — a Dafny model of the JSON ⇄ spreadsheet conversions

The application keeps a JSON editor and a spreadsheet grid side by side. It
converts between the two in two Stimulus controllers.

- **The spreadsheet controller** has two directions:
  - `getHeaders` and `convertToJson` read the grid back as an array of objects. Row 0 holds the headers.
  - `updateFromJson` lays an array of objects out as a grid.
  - On the way out, `updateFromJson` replaces a non-empty array under key `k` by one column `k` + `Capitalized(c)` for each key `c` of its first element.
  - On the way in, `convertToJson` decodes such a header (`^([a-z]+)([A-Z].*)`) back into `k: [{c: value}]`.
- **The JSON editor controller** has three steps:
  - `flattenJsonToSpreadsheet` turns a value into a header row plus one row per element. Object and array cells become JSON text.
  - `unflattenJson` reads such rows back. A cell is parsed as JSON when it can be.
  - `convertJsonToSpreadsheet` parses the editor text, flattens it, unflattens it, and hands the objects to `updateFromJson`.

The model is in five modules:

| file | module | contents |
|---|---|---|
| `json_values.dfy` | `JsonValues` | JSON values. Objects are key/value sequences in insertion order. Also: `obj[k]`, `obj[k] = v`, `delete obj[k]`, JavaScript truthiness, `Object.keys`, and the host's JSON text codec as a parameter. |
| `columns.dfy` | `Columns` | The header-naming convention (`ParseHeader` and `ChildColumn`) and the first-seen union of keys (`new Set(flatMap(Object.keys))`). |
| `spreadsheet.dfy` | `SpreadsheetController` | `getHeaders`, `convertToJson`, `transformData` and `updateFromJson`. |
| `spreadsheet_roundtrip.dfy` | `SpreadsheetRoundTrip` | What `updateFromJson` followed by `getHeaders` and `convertToJson` gives back. |
| `json_editor.dfy` | `JsonEditorController` | `flattenJsonToSpreadsheet`, `unflattenJson` and `convertJsonToSpreadsheet`, plus the flatten/unflatten round trip. |

Loops that build their results step by step are Dafny methods with loop invariants. The backward scan for the last row with a value is specified by the properties of the index it stops at. Each of the other loops is proved equal to a function that specifies it:

- the `headers.forEach` that fills an object;
- the row loop of `convertToJson`;
- the `transformData` loops;
- the row pushes of `flattenJsonToSpreadsheet`;
- the cell loop of `unflattenJson`.

The properties of those functions are then proved as lemmas.

## Model

| member | source | states |
|---|---|---|
| JsonValues.Get | app/javascript/controllers/spreadsheet_controller.js:112 | `obj[k]` finds a value exactly when the object has key `k`, and the value found is stored under `k` |
| JsonValues.Put | app/javascript/controllers/spreadsheet_controller.js:175-179 | after `obj[k] = v`, `obj[k]` is `v` and every other key reads as before |
| JsonValues.PutExisting | app/javascript/controllers/spreadsheet_controller.js:120 | assigning an existing key keeps every key in its place (insertion order is unchanged) |
| JsonValues.PutNew | app/javascript/controllers/json_editor_controller.js:193 | assigning a new key appends it at the end of the key order |
| JsonValues.PutUnique | app/javascript/controllers/json_editor_controller.js:193-195 | assignment never creates a second copy of a key |
| JsonValues.Delete | app/javascript/controllers/spreadsheet_controller.js:172 | after `delete obj[k]`, `k` is absent, every other key reads as before, and no key is new |
| JsonValues.DeleteAppend | app/javascript/controllers/spreadsheet_controller.js:172 | `delete` keeps the other pairs in their order: it distributes over concatenation, and keeps a lone pair exactly when its key differs |
| JsonValues.GetAt | app/javascript/controllers/spreadsheet_controller.js:165-166 | with distinct keys, `item[key]` for a key listed by `Object.keys` is the value stored at that position |
| JsonValues.Property | app/javascript/controllers/json_editor_controller.js:171 | `obj[header]` is the field lookup on objects; `length` is the element count of an array and the character count of a string; null, booleans and numbers have no property |
| JsonValues.IndexRoundTrip | app/javascript/controllers/json_editor_controller.js:165-171 | the decimal key `Object.keys` gives an index reads back, as a property key, as that index |
| JsonValues.OwnPropertyAt | app/javascript/controllers/spreadsheet_controller.js:162-166 | each key `Object.keys(item)` lists (an object's distinct keys, an array's or string's indices) looks up, as `item[key]`, the value listed with it |
| Columns.ParseHeader | app/javascript/controllers/spreadsheet_controller.js:108-119 | a header is a child column exactly when a non-empty run of lower-case letters is followed by an upper-case letter. Its parent is that run, and its child key starts with a lower-case letter and holds no line terminator. Every other header is a plain key, verbatim. For headers without line breaks, `ChildColumnOfParse` pins the child key exactly |
| Columns.ParseChildColumn | app/javascript/controllers/spreadsheet_controller.js:175-179 | a column named by `transformData` for a lower-case parent and a camel child key decodes back to exactly that parent and key, and is never a lower-case word |
| Columns.ChildColumnOfParse | app/javascript/controllers/spreadsheet_controller.js:108-117 | conversely, a decoded child header without line terminators is exactly the name `transformData` gives its parent and key |
| Columns.ParseLowerWord | app/javascript/controllers/spreadsheet_controller.js:108-120 | a header of lower-case letters only is a plain key |
| Columns.Dedup | app/javascript/controllers/spreadsheet_controller.js:192-194 | `Array.from(new Set(keys))` has no duplicates and holds exactly the keys |
| Columns.DedupFirstSeenOrder | app/javascript/controllers/spreadsheet_controller.js:192-194 | the union keeps first-seen order: one header precedes another exactly when its first occurrence comes first |
| Columns.ConcatKeys | app/javascript/controllers/spreadsheet_controller.js:193 | `flatMap(obj => Object.keys(obj))` holds exactly the keys found in some object |
| Columns.HeaderUnion | app/javascript/controllers/spreadsheet_controller.js:192-194 | the header row has no duplicates |
| Columns.HeaderUnionKeys | app/javascript/controllers/json_editor_controller.js:164-166 | the header row names exactly the keys found in some object |
| Columns.HeaderRow | app/javascript/controllers/spreadsheet_controller.js:197-198 | the header row has one string cell per header, in order |
| SpreadsheetController.NonBlankCells | app/javascript/controllers/spreadsheet_controller.js:79 | the filter keeps exactly the cells that are neither null nor "" |
| SpreadsheetController.GetHeaders | app/javascript/controllers/spreadsheet_controller.js:73-80 | `[]` for a grid without rows; otherwise exactly the non-blank cells of row 0 |
| SpreadsheetController.NonBlankCellsAppend | app/javascript/controllers/spreadsheet_controller.js:79 | the filter preserves order: it distributes over concatenation |
| SpreadsheetController.NonBlankCellsKeepsAll | app/javascript/controllers/spreadsheet_controller.js:79 | a row 0 without blanks is returned whole |
| SpreadsheetController.RowFieldsUnique | app/javascript/controllers/spreadsheet_controller.js:101-123 | the object built from a row never holds a key twice |
| SpreadsheetController.RowObject | app/javascript/controllers/spreadsheet_controller.js:97-136 | a row yields an object only when it has a non-blank cell, and the object is non-empty |
| SpreadsheetController.ConvertRows | app/javascript/controllers/spreadsheet_controller.js:94-138 | at most one object per data row, each non-empty with distinct keys |
| SpreadsheetController.ConvertRowsSkipsEmptyRows | app/javascript/controllers/spreadsheet_controller.js:85-94 | rows without a value contribute nothing |
| SpreadsheetController.ConvertIgnoresTrailingEmptyRows | app/javascript/controllers/spreadsheet_controller.js:85-92 | appending empty rows (the grid's spare rows) leaves the result unchanged |
| SpreadsheetController.ConvertRowsPrefix | app/javascript/controllers/spreadsheet_controller.js:94-95 | only rows 1 .. n-1 are read |
| SpreadsheetController.ConvertIgnoresHeaderRow | app/javascript/controllers/spreadsheet_controller.js:94 | row 0 never yields an object: replacing it changes nothing |
| SpreadsheetController.LastNonEmptyRow | app/javascript/controllers/spreadsheet_controller.js:86-92 | the scan stops at -1 only on an empty grid, at 0 or above otherwise; every later row is empty; a stop above 0 is at a row with a value |
| SpreadsheetController.BuildObject | app/javascript/controllers/spreadsheet_controller.js:98-123 | the `forEach` builds the row object that `RowFields` specifies |
| SpreadsheetController.ConvertToJson | app/javascript/controllers/spreadsheet_controller.js:82-141 | skips falsy headers as `if (!header) return` does, and returns one object per data row with a value that builds a non-empty object, in row order, so fewer objects than rows |
| SpreadsheetController.TransformFrom | app/javascript/controllers/spreadsheet_controller.js:165-182 | the key loop throws exactly when a later key holds a non-empty array whose first element is null |
| SpreadsheetController.Transform | app/javascript/controllers/spreadsheet_controller.js:161-186 | `transformData` on one item throws exactly for a null item or a null first child |
| SpreadsheetController.TransformAll | app/javascript/controllers/spreadsheet_controller.js:160-189 | succeeds exactly when every item does, with one transformed copy per item, in order |
| SpreadsheetController.UpdateRow | app/javascript/controllers/spreadsheet_controller.js:199-201 | one cell per header: the object's value when truthy, "" otherwise |
| SpreadsheetController.LayOut | app/javascript/controllers/spreadsheet_controller.js:191-202 | the grid is the header union's row, then one row per transformed object |
| SpreadsheetController.UpdateSpec | app/javascript/controllers/spreadsheet_controller.js:149-216 | loads a grid exactly when the widget exists and the parsed input is a non-empty array whose items all transform. The grid has one row per item, plus the header row, and every row is header-wide |
| SpreadsheetController.TransformItem | app/javascript/controllers/spreadsheet_controller.js:161-186 | the `delete` / key-assignment loops compute `Transform` |
| SpreadsheetController.UpdateFromJson | app/javascript/controllers/spreadsheet_controller.js:149-216 | returns the grid `UpdateSpec` describes, or None exactly where `updateFromJson` returns false |
| SpreadsheetRoundTrip.AddChildColumnsGet | app/javascript/controllers/spreadsheet_controller.js:174-180 | writing a child record's columns sets exactly the columns of that parent, each to the child's value |
| SpreadsheetRoundTrip.TransformRecord | app/javascript/controllers/spreadsheet_controller.js:161-186 | for a record with distinct lower-case keys whose non-empty arrays each start with a non-null element with distinct camel own keys, `transformData` does not throw; the copy keeps each non-expanding value, drops each expanded key, and holds the first element's values under the child columns |
| SpreadsheetRoundTrip.ScalarArrayDropped | app/javascript/controllers/spreadsheet_controller.js:165-180 | a non-empty array whose first element has no own keys (a number, a boolean, an empty string) loses its key and gets no child column |
| SpreadsheetRoundTrip.RowFieldsPlain | app/javascript/controllers/spreadsheet_controller.js:119-121 | a key that is no header's parent holds the last non-blank cell of the headers that decode as it, verbatim |
| SpreadsheetRoundTrip.RowFieldsChild | app/javascript/controllers/spreadsheet_controller.js:109-118 | all child columns of one parent merge into a single child record in a one-element array, present exactly when some child cell is non-blank |
| SpreadsheetRoundTrip.PlainValueAt | app/javascript/controllers/spreadsheet_controller.js:104-121 | with distinct headers, a plain key reads the cell under its own header, and nothing from a blank cell |
| SpreadsheetRoundTrip.ChildValueAt | app/javascript/controllers/spreadsheet_controller.js:104-118 | with distinct headers, a child key reads the cell under its own child column |
| SpreadsheetRoundTrip.DecodeRowPlain | app/javascript/controllers/spreadsheet_controller.js:101-123 | a row laid out from a copy reads back, under a key that no header names as a parent, the truthy value the copy holds |
| SpreadsheetRoundTrip.DecodeRowChild | app/javascript/controllers/spreadsheet_controller.js:101-123 | under a parent, a row laid out from a copy reads back the child record of the truthy child-column values |
| SpreadsheetRoundTrip.RecordRowPlain | app/javascript/controllers/spreadsheet_controller.js:119-201 | a non-expanding key comes back with its value when that is truthy, and is absent otherwise |
| SpreadsheetRoundTrip.RecordRowExpanded | app/javascript/controllers/spreadsheet_controller.js:108-180 | an expanded key `k` comes back as `k: [{c: v}]` for the truthy values `v` of its first element, and is absent when no property of its first element is truthy; later elements are dropped |
| SpreadsheetRoundTrip.RecordRowAbsent | app/javascript/controllers/spreadsheet_controller.js:101-123 | a key the record lacks is absent from the object read back |
| SpreadsheetRoundTrip.RecordRow | app/javascript/controllers/spreadsheet_controller.js:131-201 | a record's row yields an object exactly when the record has a value that leaves a trace, and that object restores the record |
| SpreadsheetRoundTrip.HeadersOfRecords | app/javascript/controllers/spreadsheet_controller.js:191-194 | the header row of consistent records is decodable, names no expanded key, and names no plain key as a parent |
| SpreadsheetRoundTrip.HeadersReadBack | app/javascript/controllers/spreadsheet_controller.js:73-80 | `getHeaders` returns the laid-out header row whole |
| SpreadsheetRoundTrip.ConvertRowsRestore | app/javascript/controllers/spreadsheet_controller.js:94-138 | rows that each restore their record read back, in order, as the records that leave a trace |
| SpreadsheetRoundTrip.RoundTrip | app/javascript/controllers/spreadsheet_controller.js:73-216 | `updateFromJson` accepts an array of consistent lower-case records. `getHeaders` then `convertToJson` on its grid meet their preconditions and give back, in order, each record with a value, minus its falsy values. Each array whose first element has a truthy property comes back as `[{its truthy properties}]`, and every other array is dropped. A record with no truthy plain value and no such array is not returned |
| JsonEditorController.FlatCell | app/javascript/controllers/json_editor_controller.js:170-176 | an absent key gives "". An object or array gives its JSON text. Null and other scalars pass through unchanged |
| JsonEditorController.FlatRow | app/javascript/controllers/json_editor_controller.js:170-176 | one scalar cell per header |
| JsonEditorController.Flatten | app/javascript/controllers/json_editor_controller.js:162-181 | throws exactly when an element is null. Otherwise there is one row per element (a non-array counts as one element) after the header row |
| JsonEditorController.FlatData | app/javascript/controllers/json_editor_controller.js:167-178 | `[headers, ...rows]`: row `i + 1` is element `i`'s row |
| JsonEditorController.FlattenLayout | app/javascript/controllers/json_editor_controller.js:163-180 | distinct headers naming exactly the elements' keys, and each element's row under them |
| JsonEditorController.FlattenJsonToSpreadsheet | app/javascript/controllers/json_editor_controller.js:162-181 | the `forEach` that pushes rows computes `Flatten` |
| JsonEditorController.UnflattenUnique | app/javascript/controllers/json_editor_controller.js:188-198 | an unflattened object never holds a key twice |
| JsonEditorController.Unflatten | app/javascript/controllers/json_editor_controller.js:183-201 | exactly one object per row after the header row, none dropped even when empty, and none without a header row |
| JsonEditorController.UnflattenRow | app/javascript/controllers/json_editor_controller.js:188-198 | the cell loop builds the object `UnflattenFields` specifies |
| JsonEditorController.UnflattenJson | app/javascript/controllers/json_editor_controller.js:183-201 | the row map computes `Unflatten` |
| JsonEditorController.UnflattenGet | app/javascript/controllers/json_editor_controller.js:189-197 | with distinct headers, a "" cell adds no key and any other cell is stored under its header as `JSON.parse(value)`, or as the raw value when parsing fails |
| JsonEditorController.UnflattenGetAbsent | app/javascript/controllers/json_editor_controller.js:188-198 | no key other than a header is ever set |
| JsonEditorController.ParseFlatCell | app/javascript/controllers/json_editor_controller.js:170-196 | a value that survives the trip reads back from its cell as itself, and an absent key reads back as absent |
| JsonEditorController.FlattenUnflatten | app/javascript/controllers/json_editor_controller.js:143-146 | unflattening the flattened data of objects whose values survive the trip gives back one object per element with exactly the element's values |
| JsonEditorController.ConvertSpec | app/javascript/controllers/json_editor_controller.js:116-160 | a syntax error is alerted exactly when the text does not parse. A type error is alerted exactly when an element is null and the controller is found. Nothing happens exactly when the controller is missing |
| JsonEditorController.ConvertJsonToSpreadsheet | app/javascript/controllers/json_editor_controller.js:116-160 | the method ends as `ConvertSpec` describes |
| JsonEditorController.ThrowsAlike | app/javascript/controllers/spreadsheet_controller.js:169-174 | objects holding the same values make `transformData` throw alike |
| JsonEditorController.LoadsWhen | app/javascript/controllers/spreadsheet_controller.js:154-207 | objects that throw where the originals do load exactly when the widget exists, there is an object, and none throws |
| JsonEditorController.ConvertLoads | app/javascript/controllers/json_editor_controller.js:116-160 | for text holding objects that survive the trip, the grid loads exactly when the controller and widget exist, there is an object, and no object holds an array whose first element is null |
| JsonEditorController.UnflattenedTransform | app/javascript/controllers/json_editor_controller.js:143-149 | the unflattened objects make `transformData` throw exactly when the originals do |

## Left out

- The Stimulus lifecycle, widget setup, DOM queries and the editor/grid instances (`connect`, `initSpreadsheet`, `toJson`, `toSpreadsheet`): these are UI and I/O. The grid is a value, `this.hot` is the flag `ready` (so `isReady`, which returns `!!this.hot`, is that flag), and finding the spreadsheet element and its controller is the one flag `found`.
- `toSpreadsheet`'s `setTimeout`/`setInterval` polling for readiness: timer-driven asynchronous code.
- `toJson`'s pretty printing and the grammar of `JSON.parse`/`JSON.stringify`: the codec is a parameter (`JsonText`). The round-trip lemmas assume of it only `RoundTrips`: parsing the text of an array or object gives it back, and parsing the empty text fails.
- `console.*` and `alert`: an alert is the outcome `Alerted` with the kind of error thrown, not its message.
- JavaScript numbers are IEEE doubles; the model's numbers are integers, so NaN, -0 and rounding are not modelled.
- JavaScript lists integer-like keys first in `Object.keys`; the model keeps plain insertion order.
- `toUpperCase`/`toLowerCase` are modelled on ASCII letters only. Strings are sequences of characters, not of UTF-16 code units.
- Inherited properties (`obj["constructor"]`, ...) are not modelled: lookup sees own properties, plus `length` on arrays and strings.
- Array indices are not capped at 2^32-2.
- `undefined` never appears in a value; `String(array)` cells, which `JSON.parse` would coerce, are not modelled.
- SpreadsheetController.ConvertToJson: requires every header to be a string or falsy. Falsy headers (`0`, `false`) are skipped, as `convertToJson` skips them. A truthy non-string header makes `convertToJson` throw on `.match` once a cell under it is non-blank; that error path is not modelled.
- SpreadsheetController.ConvertToJson: requires rows as wide as the header list; short rows would give `undefined` cells.
- SpreadsheetController.ConvertToJson: requires `NoParentClash`: no plain header equals a child column's parent. This is stricter than `convertToJson` needs. It goes wrong only when one row has non-blank cells under both the plain header and a child column of that parent: it then writes into, or throws on, the plain value, or overwrites the child record. Grids with such headers whose rows never fill both are converted correctly by `convertToJson`, but the model does not cover them.
- JsonEditorController.Unflatten: requires a header row of strings and rows with a scalar cell under every header, which is what flattening produces.
- SpreadsheetRoundTrip.RoundTrip: proved only for records with lower-case keys, camel child keys, and no key that expands in one record but is plain in another. That is the scope of the proof, not a limit of `convertToJson`. It reads back many other records, for example plain keys such as `user_id` or `id2`, which decode verbatim.
- SpreadsheetRoundTrip.TransformRecord: proved only for arrays whose first element is not null and has only distinct camel own keys, or none. A first element that is a non-empty string or array has index keys (`0`, `1`, ...). It is spread into columns `k0`, `k1`, ..., which `convertToJson` reads back as plain keys; the model does not cover that case.
- Objects with a repeated key cannot be built in JavaScript, but the `Json` datatype does not exclude them. Over them, `TransformFrom` reads values by position rather than by key. `OwnPropertyAt` shows that the two agree whenever the keys are distinct.
- JsonEditorController.FlattenUnflatten: proved for arrays of objects whose values are not "" and whose string values are not JSON text (those read back differently). Equality is per key: objects with the same keys, whatever their order.
- config/importmap.rb is not part of this model: it only pins assets.

## Behaviour kept as written

- `convertToJson` keeps cell text verbatim and parses no JSON.
- `getHeaders` drops blank headers, yet `convertToJson` indexes cells by the filtered position. Columns after a blank header are therefore read from the wrong cell. The model keeps this: `ConvertToJson` takes the filtered headers and indexes row cells by their position in that list.
- `childrenData` is never filled.
- `flattenJsonToSpreadsheet` keeps `null` cells, writes nested values as JSON text without dotted paths, and wraps a bare scalar into a one-element array.
- Interior rows without a value are skipped as well as trailing ones.
- `transformData` expands every non-empty array, not only arrays of objects. An array of numbers or booleans, such as `tags: [1, 2, 3]`, loses its key and gets no column, so the grid has no `tags` column.

=== FILE: columns.dfy ===
/** Column headers: the first-seen union of object keys that both controllers use
    as the header row, and the naming convention that stores one child record
    under a parent key as camel-cased columns (`children` + `name` -> `childrenName`). */
module Columns {
  import opened JsonValues

  predicate IsLower(ch: char) { 'a' <= ch <= 'z' }
  predicate IsUpper(ch: char) { 'A' <= ch <= 'Z' }

  /** A non-empty run of lower-case ASCII letters: what `[a-z]+` matches in full. */
  predicate IsLowerWord(s: string) {
    |s| > 0 && forall i | 0 <= i < |s| :: IsLower(s[i])
  }

  /** The characters JavaScript's `.` does not match. */
  predicate IsLineTerminator(ch: char) {
    ch == '\n' || ch == '\r' || ch == '\U{2028}' || ch == '\U{2029}'
  }

  predicate NoLineBreak(s: string) {
    forall i | 0 <= i < |s| :: !IsLineTerminator(s[i])
  }

  function ToUpper(ch: char): (u: char)
    ensures IsLower(ch) ==> IsUpper(u)
    ensures !IsLower(ch) ==> u == ch
  {
    if IsLower(ch) then (ch as int - 32) as char else ch
  }

  function ToLower(ch: char): (l: char)
    ensures IsUpper(ch) ==> IsLower(l) && ToUpper(l) == ch
    ensures !IsUpper(ch) ==> l == ch
  {
    if IsUpper(ch) then (ch as int + 32) as char else ch
  }

  /** `s.charAt(0).toUpperCase() + s.slice(1)` (ASCII letters only). */
  function Capitalize(s: string): (r: string)
    ensures |r| == |s| && (s != "" ==> r[1..] == s[1..])
    ensures s != "" && IsLower(s[0]) ==> IsUpper(r[0])
  {
    if s == "" then "" else [ToUpper(s[0])] + s[1..]
  }

  /** `s.charAt(0).toLowerCase() + s.slice(1)` (ASCII letters only). */
  function Uncapitalize(s: string): (r: string)
    ensures |r| == |s| && (s != "" ==> r[1..] == s[1..])
    ensures s != "" && IsUpper(s[0]) ==> IsLower(r[0]) && Capitalize(r) == s
  {
    if s == "" then "" else [ToLower(s[0])] + s[1..]
  }

  /** The length of the longest prefix of lower-case ASCII letters. */
  function LowerRun(h: string): (n: nat)
    ensures n <= |h|
    ensures forall i | 0 <= i < n :: IsLower(h[i])
    ensures n < |h| ==> !IsLower(h[n])
  {
    if h != "" && IsLower(h[0]) then 1 + LowerRun(h[1..]) else 0
  }

  /** The longest prefix without a line terminator: what `.*` matches. */
  function TakeLine(s: string): (r: string)
    ensures |r| <= |s| && r == s[..|r|]
    ensures NoLineBreak(r)
    ensures |r| < |s| ==> IsLineTerminator(s[|r|])
  {
    if s == "" || IsLineTerminator(s[0]) then "" else [s[0]] + TakeLine(s[1..])
  }

  /** What a header names: a key of the row object, or a key of the one child
      record stored under a parent key. */
  datatype ColumnPath = Plain(name: string) | Child(parent: string, key: string)

  /** The decoding done with `header.match(/^([a-z]+)([A-Z].*)/)`: a header that
      starts with lower-case letters followed by an upper-case letter names the
      child key (first letter lowered, cut at a line terminator) under the parent
      made of those lower-case letters; every other header is a plain key. */
  function ParseHeader(h: string): (p: ColumnPath)
    ensures p.Plain? ==> p.name == h
    ensures p.Child? <==> 0 < LowerRun(h) < |h| && IsUpper(h[LowerRun(h)])
    ensures p.Child? ==> p.parent == h[..LowerRun(h)] && IsLowerWord(p.parent)
    ensures p.Child? ==> |p.key| > 0 && IsLower(p.key[0]) && NoLineBreak(p.key)
  {
    var n := LowerRun(h);
    if 0 < n < |h| && IsUpper(h[n]) then Child(h[..n], Uncapitalize(TakeLine(h[n..])))
    else Plain(h)
  }

  /** The column name `transformData` gives to child key `key` under `parent`. */
  function ChildColumn(parent: string, key: string): string {
    parent + Capitalize(key)
  }

  /** LowerRun sees exactly the lower-case word in front of an upper-case letter. */
  lemma {:induction false} LowerRunOfWord(w: string, rest: string)
    requires (forall i | 0 <= i < |w| :: IsLower(w[i]))
    requires rest == "" || !IsLower(rest[0])
    ensures LowerRun(w + rest) == |w|
  {
    if w != "" {
      assert (w + rest)[1..] == w[1..] + rest;
      LowerRunOfWord(w[1..], rest);
    }
  }

  /** Naming a child column and decoding the name gives back the parent and
      the child key, for a lower-case parent and a child key that starts with a
      lower-case letter and holds no line terminator. */
  lemma ParseChildColumn(parent: string, key: string)
    requires IsLowerWord(parent)
    requires |key| > 0 && IsLower(key[0]) && NoLineBreak(key)
    ensures ParseHeader(ChildColumn(parent, key)) == Child(parent, key)
    ensures NoLineBreak(ChildColumn(parent, key)) && !IsLowerWord(ChildColumn(parent, key))
  {
    var h := ChildColumn(parent, key);
    var cap := Capitalize(key);
    assert h[|parent|] == cap[0];
    forall i | 0 <= i < |h| ensures !IsLineTerminator(h[i]) {
      if i < |parent| {
        assert h[i] == parent[i];
      } else if i > |parent| {
        assert h[i] == key[i - |parent|];
      }
    }
    LowerRunOfWord(parent, cap);
    assert h[|parent|..] == cap;
    assert TakeLine(cap) == cap by {
      TakeLineWhole(cap);
    }
    assert h[..|parent|] == parent;
    assert Uncapitalize(cap) == key by {
      assert [ToLower(ToUpper(key[0]))] + cap[1..] == key;
    }
  }

  lemma {:induction false} TakeLineWhole(s: string)
    requires NoLineBreak(s)
    ensures TakeLine(s) == s
  {
    if s != "" {
      TakeLineWhole(s[1..]);
    }
  }

  /** Conversely, a header without line terminators that decodes as a child
      column is exactly the name `transformData` would give that child key. */
  lemma ChildColumnOfParse(h: string)
    requires ParseHeader(h).Child? && NoLineBreak(h)
    ensures h == ChildColumn(ParseHeader(h).parent, ParseHeader(h).key)
  {
    var n := LowerRun(h);
    assert NoLineBreak(h[n..]);
    TakeLineWhole(h[n..]);
    assert h == h[..n] + h[n..];
  }

  /** A header made of lower-case letters only is a plain key. */
  lemma ParseLowerWord(h: string)
    requires IsLowerWord(h)
    ensures ParseHeader(h) == Plain(h)
  {
    LowerRunOfWord(h, "");
    assert h + "" == h;
  }

  predicate NoDuplicates(s: seq<string>) {
    forall i, j | 0 <= i < j < |s| :: s[i] != s[j]
  }

  /** `Array.from(new Set(keys))`: the keys without repeats, each at its first occurrence. */
  function Dedup(ks: seq<string>): (r: seq<string>)
    ensures NoDuplicates(r)
    ensures forall x :: x in r <==> x in ks
    ensures |r| <= |ks|
  {
    if ks == [] then []
    else
      var p := Dedup(ks[..|ks| - 1]);
      assert ks == ks[..|ks| - 1] + [ks[|ks| - 1]];
      if ks[|ks| - 1] in p then p else p + [ks[|ks| - 1]]
  }

  /** The position of the first occurrence of `x`. */
  function FirstIndex(ks: seq<string>, x: string): (i: nat)
    requires x in ks
    ensures i < |ks| && ks[i] == x && x !in ks[..i]
  {
    if ks[0] == x then 0
    else
      var i := 1 + FirstIndex(ks[1..], x);
      assert ks[..i] == [ks[0]] + ks[1..][..i - 1];
      i
  }

  lemma {:induction false} FirstIndexPrefix(ks: seq<string>, n: nat, x: string)
    requires n <= |ks| && x in ks[..n]
    ensures x in ks && FirstIndex(ks, x) == FirstIndex(ks[..n], x)
  {
    var i := FirstIndex(ks[..n], x);
    var j := FirstIndex(ks, x);
    assert ks[..n][..i] == ks[..i];
  }

  /** The union keeps first-seen order: a header stands before another exactly
      when its first occurrence among the keys comes first. */
  lemma {:induction false} DedupFirstSeenOrder(ks: seq<string>)
    ensures forall i, j | 0 <= i < j < |Dedup(ks)| ::
      FirstIndex(ks, Dedup(ks)[i]) < FirstIndex(ks, Dedup(ks)[j])
  {
    if ks != [] {
      var n := |ks| - 1;
      var init := ks[..n];
      var p := Dedup(init);
      DedupFirstSeenOrder(init);
      var r := Dedup(ks);
      forall i, j | 0 <= i < j < |r|
        ensures FirstIndex(ks, r[i]) < FirstIndex(ks, r[j])
      {
        assert r[i] in p;
        FirstIndexPrefix(ks, n, r[i]);
        if j < |p| {
          FirstIndexPrefix(ks, n, r[j]);
        } else {
          assert r[j] == ks[n] && ks[n] !in init;
          assert FirstIndex(ks, r[j]) == n;
        }
      }
    }
  }

  /** `objects.flatMap(obj => Object.keys(obj))`. */
  function ConcatKeys(objs: seq<Fields>): (ks: seq<string>)
    ensures forall k :: k in ks <==> exists i | 0 <= i < |objs| :: HasKey(objs[i], k)
  {
    if objs == [] then []
    else
      var n := |objs| - 1;
      var init := ConcatKeys(objs[..n]);
      assert forall i | 0 <= i < n :: objs[..n][i] == objs[i];
      assert forall k :: k in Keys(objs[n]) <==> HasKey(objs[n], k) by {
        forall k | HasKey(objs[n], k) ensures k in Keys(objs[n]) {
          var i :| 0 <= i < |objs[n]| && objs[n][i].0 == k;
          assert Keys(objs[n])[i] == k;
        }
      }
      init + Keys(objs[n])
  }

  /** The header row: the union of the objects' keys in first-seen order. */
  function HeaderUnion(objs: seq<Fields>): (hs: seq<string>)
    ensures NoDuplicates(hs)
  {
    Dedup(ConcatKeys(objs))
  }

  /** The header row names exactly the keys found in some object. */
  lemma HeaderUnionKeys(objs: seq<Fields>)
    ensures forall k :: k in HeaderUnion(objs) <==> exists i | 0 <= i < |objs| :: HasKey(objs[i], k)
  {
    var ks := ConcatKeys(objs);
    assert forall k :: k in Dedup(ks) <==> k in ks;
  }

  /** The header row as grid cells. */
  function HeaderRow(hs: seq<string>): (row: seq<Json>)
    ensures |row| == |hs|
    ensures forall j | 0 <= j < |hs| :: row[j] == JStr(hs[j])
  {
    seq(|hs|, j requires 0 <= j < |hs| => JStr(hs[j]))
  }

  /** The strings of a header row whose cells are all strings. */
  function Texts(headers: seq<Json>): (names: seq<string>)
    requires forall i | 0 <= i < |headers| :: headers[i].JStr?
    ensures |names| == |headers|
    ensures forall i | 0 <= i < |headers| :: headers[i] == JStr(names[i])
  {
    seq(|headers|, i requires 0 <= i < |headers| => headers[i].s)
  }
}

=== FILE: json_editor.dfy ===
/** The JSON editor controller's path from the editor text to the grid:
    `flattenJsonToSpreadsheet` lays the parsed value out as rows of cells,
    `unflattenJson` reads those rows back into objects, and
    `convertJsonToSpreadsheet` chains both into the spreadsheet controller's
    `updateFromJson`. The editor widget, the page and the controller lookup are
    not modelled: their results are parameters. */
module JsonEditorController {
  import opened JsonValues
  import opened Columns
  import SpreadsheetController

  /** The exceptions the editor path can raise: `JSON.parse` on text that is
      not JSON, and `Object.keys(null)`. */
  datatype Thrown = SyntaxError | TypeError

  /** A computation that may throw. */
  datatype Result<+T> = Ok(value: T) | Failure(error: Thrown)

  /** What `flattenJsonToSpreadsheet` returns: `{ headers, data }`. */
  datatype Flattened = Flattened(headers: seq<string>, data: seq<seq<Json>>)

  // ---------------------------------------------------------------------------
  // `flattenJsonToSpreadsheet`
  // ---------------------------------------------------------------------------

  /** `Array.isArray(json) ? json : [json]`. */
  function Elements(json: Json): seq<Json> {
    if json.JArr? then json.items else [json]
  }

  predicate HasNull(items: seq<Json>) {
    exists i | 0 <= i < |items| :: items[i].JNull?
  }

  /** The own properties of each element. */
  function ElementFields(items: seq<Json>): (fs: seq<Fields>)
    ensures |fs| == |items| && forall i | 0 <= i < |items| :: fs[i] == OwnFields(items[i])
  {
    seq(|items|, i requires 0 <= i < |items| => OwnFields(items[i]))
  }

  /** A cell the flattening can write: null, a boolean, a number or a string. */
  predicate Scalar(v: Json) {
    v.JNull? || v.JBool? || v.JNum? || v.JStr?
  }

  /** One cell of a flattened row: `obj[header]`, as JSON text when it is an
      array or an object, "" when it is undefined. */
  function FlatCell(obj: Json, header: string, codec: JsonText): (cell: Json)
    ensures Scalar(cell)
    ensures Property(obj, header).None? ==> cell == EmptyCell
    ensures Property(obj, header).Some? ==>
      var v := Property(obj, header).value;
      cell == if Scalar(v) then v else JStr(codec.stringify(v))
  {
    match Property(obj, header)
    case None => EmptyCell
    case Some(v) => if v.JArr? || v.JObj? then JStr(codec.stringify(v)) else v
  }

  /** `headers.map(header => ...)` for one element. */
  function FlatRow(obj: Json, headers: seq<string>, codec: JsonText): (row: seq<Json>)
    ensures |row| == |headers| && forall j | 0 <= j < |headers| :: Scalar(row[j])
  {
    seq(|headers|, j requires 0 <= j < |headers| => FlatCell(obj, headers[j], codec))
  }

  /** What `flattenJsonToSpreadsheet(json)` returns, or the error it throws
      (`Object.keys(null)` for a null element). */
  function Flatten(json: Json, codec: JsonText): (r: Result<Flattened>)
    ensures r.Failure? <==> HasNull(Elements(json))
    ensures r.Ok? ==> |r.value.data| == |Elements(json)| + 1 && r.value.data[0] == HeaderRow(r.value.headers)
  {
    var items := Elements(json);
    if HasNull(items) then Failure(TypeError)
    else
      var headers := HeaderUnion(ElementFields(items));
      Ok(Flattened(headers, FlatData(items, headers, codec)))
  }

  /** `[headers, ...rows]`: the header row, then one flattened row per element. */
  function FlatData(items: seq<Json>, headers: seq<string>, codec: JsonText): (data: seq<seq<Json>>)
    ensures |data| == |items| + 1 && data[0] == HeaderRow(headers)
    ensures forall i | 0 <= i < |items| :: data[i + 1] == FlatRow(items[i], headers, codec)
  {
    [HeaderRow(headers)] + FlatRows(items, headers, codec)
  }

  /** Flattened rows are what `unflattenJson` reads. */
  lemma FlatDataUnflattenable(items: seq<Json>, headers: seq<string>, codec: JsonText)
    ensures Unflattenable(FlatData(items, headers, codec))
  {
    var data := FlatData(items, headers, codec);
    forall i | 1 <= i < |data| ensures RowFits(|data[0]|, data[i]) {
      assert data[i] == FlatRow(items[i - 1], headers, codec);
    }
  }

  /** `objects.map(obj => headers.map(...))`. */
  function FlatRows(items: seq<Json>, headers: seq<string>, codec: JsonText): (rows: seq<seq<Json>>)
    ensures |rows| == |items| && forall i | 0 <= i < |items| :: rows[i] == FlatRow(items[i], headers, codec)
  {
    seq(|items|, i requires 0 <= i < |items| => FlatRow(items[i], headers, codec))
  }

  /** The layout of a flattened value: distinct headers naming exactly the keys
      of the elements, then one row per element holding, under each header,
      that element's cell. */
  lemma FlattenLayout(json: Json, codec: JsonText)
    requires Flatten(json, codec).Ok?
    ensures var flat := Flatten(json, codec).value; var items := Elements(json);
      && NoDuplicates(flat.headers)
      && (forall k :: k in flat.headers <==> exists i | 0 <= i < |items| :: HasKey(OwnFields(items[i]), k))
      && (forall i | 0 <= i < |items| :: flat.data[i + 1] == FlatRow(items[i], flat.headers, codec))
  {
    var items := Elements(json);
    var hs := HeaderUnion(ElementFields(items));
    assert Flatten(json, codec).value == Flattened(hs, FlatData(items, hs, codec));
    ElementKeys(items);
  }

  /** The header union of the elements names exactly their own keys. */
  lemma ElementKeys(items: seq<Json>)
    ensures forall k :: k in HeaderUnion(ElementFields(items)) <==>
      exists i | 0 <= i < |items| :: HasKey(OwnFields(items[i]), k)
  {
    var fs := ElementFields(items);
    HeaderUnionKeys(fs);
    forall k ensures k in HeaderUnion(fs) <==> exists i | 0 <= i < |items| :: HasKey(OwnFields(items[i]), k) {
      if k in HeaderUnion(fs) {
        var i :| 0 <= i < |fs| && HasKey(fs[i], k);
        assert HasKey(OwnFields(items[i]), k);
      }
      if exists i | 0 <= i < |items| :: HasKey(OwnFields(items[i]), k) {
        var i :| 0 <= i < |items| && HasKey(OwnFields(items[i]), k);
        assert HasKey(fs[i], k);
      }
    }
  }

  /** Flattening one more element appends its row. */
  lemma FlatRowsSnoc(items: seq<Json>, i: nat, headers: seq<string>, codec: JsonText)
    requires i < |items|
    ensures FlatRows(items[..i + 1], headers, codec) == FlatRows(items[..i], headers, codec) + [FlatRow(items[i], headers, codec)]
  {
    assert items[..i + 1] == items[..i] + [items[i]];
  }

  /** `flattenJsonToSpreadsheet(json)`, pushing one row per element. */
  method FlattenJsonToSpreadsheet(json: Json, codec: JsonText) returns (r: Result<Flattened>)
    ensures r == Flatten(json, codec)
  {
    var items := Elements(json);
    if HasNull(items) {
      return Failure(TypeError);
    }
    var headers := HeaderUnion(ElementFields(items));
    var data := [HeaderRow(headers)];
    var i := 0;
    while i < |items|
      invariant 0 <= i <= |items|
      invariant data == [HeaderRow(headers)] + FlatRows(items[..i], headers, codec)
    {
      FlatRowsSnoc(items, i, headers, codec);
      data := data + [FlatRow(items[i], headers, codec)];
      i := i + 1;
    }
    assert items[..i] == items;
    r := Ok(Flattened(headers, data));
  }

  // ---------------------------------------------------------------------------
  // `unflattenJson`
  // ---------------------------------------------------------------------------

  /** `JSON.parse(value)`, keeping the raw value when it throws. Null, booleans
      and numbers are turned into their text first, which reads back as the
      same value. */
  function ParseCell(value: Json, codec: JsonText): Json
    requires Scalar(value)
  {
    if value.JStr? then
      match codec.parse(value.s)
      case Some(v) => v
      case None => value
    else value
  }

  /** The object built from the first `n` cells of a row: every cell other
      than "" is read back under its header. */
  function UnflattenFields(headers: seq<string>, row: seq<Json>, n: nat, codec: JsonText): Fields
    requires n <= |headers| && n <= |row| && forall j | 0 <= j < n :: Scalar(row[j])
  {
    if n == 0 then []
    else
      var prev := UnflattenFields(headers, row, n - 1, codec);
      if row[n - 1] == EmptyCell then prev
      else Put(prev, headers[n - 1], ParseCell(row[n - 1], codec))
  }

  /** The object read back never holds a key twice. */
  lemma {:induction false} UnflattenUnique(headers: seq<string>, row: seq<Json>, n: nat, codec: JsonText)
    requires n <= |headers| && n <= |row| && forall j | 0 <= j < n :: Scalar(row[j])
    ensures UniqueKeys(UnflattenFields(headers, row, n, codec))
  {
    if n > 0 {
      UnflattenUnique(headers, row, n - 1, codec);
      if row[n - 1] != EmptyCell {
        PutUnique(UnflattenFields(headers, row, n - 1, codec), headers[n - 1], ParseCell(row[n - 1], codec));
      }
    }
  }

  /** The grids `unflattenJson` is given: a header row of strings and data rows
      holding a scalar cell for every header (what flattening produces). */
  predicate Unflattenable(data: seq<seq<Json>>) {
    data != [] ==>
      && (forall j | 0 <= j < |data[0]| :: data[0][j].JStr?)
      && (forall i | 1 <= i < |data| :: RowFits(|data[0]|, data[i]))
  }

  /** A data row with a scalar cell under each of `width` headers. */
  predicate RowFits(width: nat, row: seq<Json>) {
    width <= |row| && forall j | 0 <= j < width :: Scalar(row[j])
  }

  /** What `unflattenJson(data)` returns: one object per data row, none without a header row. */
  function Unflatten(data: seq<seq<Json>>, codec: JsonText): (objs: seq<Json>)
    requires Unflattenable(data)
    ensures data == [] ==> objs == []
    ensures data != [] ==> |objs| == |data| - 1
    ensures forall i | 0 <= i < |objs| :: objs[i].JObj?
  {
    if data == [] then []
    else
      var headers := Texts(data[0]);
      seq(|data| - 1, i requires 0 <= i < |data| - 1 =>
        JObj(UnflattenFields(headers, data[i + 1], |headers|, codec)))
  }

  /** The `headers.forEach` that fills one object. */
  method UnflattenRow(headers: seq<string>, row: seq<Json>, codec: JsonText) returns (obj: Fields)
    requires |headers| <= |row| && forall j | 0 <= j < |headers| :: Scalar(row[j])
    ensures obj == UnflattenFields(headers, row, |headers|, codec)
  {
    obj := [];
    var index := 0;
    while index < |headers|
      invariant 0 <= index <= |headers|
      invariant obj == UnflattenFields(headers, row, index, codec)
    {
      var value := row[index];
      if value != EmptyCell {
        obj := Put(obj, headers[index], ParseCell(value, codec));
      }
      index := index + 1;
    }
  }

  /** `unflattenJson(data)`. */
  method UnflattenJson(data: seq<seq<Json>>, codec: JsonText) returns (objs: seq<Json>)
    requires Unflattenable(data)
    ensures objs == Unflatten(data, codec)
  {
    if data == [] {
      return [];
    }
    var headers := Texts(data[0]);
    objs := [];
    var i := 1;
    while i < |data|
      invariant 1 <= i <= |data|
      invariant |objs| == i - 1
      invariant forall k | 0 <= k < i - 1 :: objs[k] == JObj(UnflattenFields(headers, data[k + 1], |headers|, codec))
    {
      assert RowFits(|headers|, data[i]);
      var obj := UnflattenRow(headers, data[i], codec);
      objs := objs + [JObj(obj)];
      i := i + 1;
    }
    assert forall k | 0 <= k < |objs| :: objs[k] == Unflatten(data, codec)[k];
  }

  // ---------------------------------------------------------------------------
  // Flattening then unflattening
  // ---------------------------------------------------------------------------

  /** What a cell reads back as: nothing for "", otherwise its parsed value. */
  function ReadBack(cell: Json, codec: JsonText): Option<Json>
    requires Scalar(cell)
  {
    if cell == EmptyCell then None else Some(ParseCell(cell, codec))
  }

  /** With distinct headers, the object read back holds, under a header, what
      its cell reads back as. */
  lemma {:induction false} UnflattenGet(headers: seq<string>, row: seq<Json>, n: nat, codec: JsonText, j: nat)
    requires n <= |headers| && n <= |row| && (forall i | 0 <= i < n :: Scalar(row[i])) && NoDuplicates(headers)
    requires j < n
    ensures Get(UnflattenFields(headers, row, n, codec), headers[j]) == ReadBack(row[j], codec)
  {
    if n - 1 != j {
      assert headers[j] != headers[n - 1];
      UnflattenGetOther(headers, row, n, codec, headers[j]);
      UnflattenGet(headers, row, n - 1, codec, j);
    } else {
      assert forall i | 0 <= i < n - 1 :: headers[i] != headers[j];
      UnflattenGetAbsent(headers, row, n - 1, codec, headers[j]);
      UnflattenGetLast(headers, row, n, codec);
    }
  }

  /** The last cell read is stored under its header. */
  lemma UnflattenGetLast(headers: seq<string>, row: seq<Json>, n: nat, codec: JsonText)
    requires 0 < n <= |headers| && n <= |row| && (forall i | 0 <= i < n :: Scalar(row[i]))
    requires Get(UnflattenFields(headers, row, n - 1, codec), headers[n - 1]) == None
    ensures Get(UnflattenFields(headers, row, n, codec), headers[n - 1]) == ReadBack(row[n - 1], codec)
  {
  }

  /** Reading one more cell leaves every other header's value as it was. */
  lemma UnflattenGetOther(headers: seq<string>, row: seq<Json>, n: nat, codec: JsonText, k: string)
    requires 0 < n <= |headers| && n <= |row| && (forall i | 0 <= i < n :: Scalar(row[i]))
    requires k != headers[n - 1]
    ensures Get(UnflattenFields(headers, row, n, codec), k) == Get(UnflattenFields(headers, row, n - 1, codec), k)
  {
  }

  /** Nothing is read back under a key that is not among the first `n` headers. */
  lemma {:induction false} UnflattenGetAbsent(headers: seq<string>, row: seq<Json>, n: nat, codec: JsonText, k: string)
    requires n <= |headers| && n <= |row| && (forall i | 0 <= i < n :: Scalar(row[i]))
    requires k !in headers[..n]
    ensures Get(UnflattenFields(headers, row, n, codec), k) == None
  {
    if n > 0 {
      assert headers[..n] == headers[..n - 1] + [headers[n - 1]];
      UnflattenGetAbsent(headers, row, n - 1, codec, k);
      UnflattenGetOther(headers, row, n, codec, k);
    }
  }

  /** The values the round trip keeps: no element is null, every element is an
      object, no value is the empty string (whose cell reads as "no value"), and
      no string value is itself JSON text (it would be read back parsed). */
  predicate KeepsValues(items: seq<Json>, codec: JsonText) {
    forall i | 0 <= i < |items| :: KeepsRecord(items[i], codec)
  }

  /** An object whose values all survive the trip through a cell. */
  predicate KeepsRecord(v: Json, codec: JsonText) {
    && v.JObj? && UniqueKeys(v.fields)
    && forall a | 0 <= a < |v.fields| :: KeepsCell(v.fields[a].1, codec)
  }

  predicate KeepsCell(v: Json, codec: JsonText) {
    v != EmptyCell && (v.JStr? ==> codec.parse(v.s) == None)
  }

  /** The cell flattened from an object's key reads back as the key's value. */
  lemma ParseFlatCell(v: Json, k: string, codec: JsonText)
    requires RoundTrips(codec) && KeepsRecord(v, codec)
    ensures var cell := FlatCell(v, k, codec);
      Get(v.fields, k) == ReadBack(cell, codec)
  {
    if Get(v.fields, k).Some? {
      var x := Get(v.fields, k).value;
      var a :| 0 <= a < |v.fields| && v.fields[a] == (k, x);
      assert KeepsCell(v.fields[a].1, codec);
      if x.JArr? || x.JObj? {
        assert codec.parse(codec.stringify(x)) == Some(x);
      }
    }
  }

  /** Reading back the row flattened from an object, under distinct headers
      that include all its keys, gives the object's values back. */
  lemma FlatRowReadBack(v: Json, hs: seq<string>, codec: JsonText, k: string)
    requires RoundTrips(codec) && KeepsRecord(v, codec) && NoDuplicates(hs)
    requires forall q | HasKey(v.fields, q) :: q in hs
    ensures Get(UnflattenFields(hs, FlatRow(v, hs, codec), |hs|, codec), k) == Get(v.fields, k)
  {
    var row := FlatRow(v, hs, codec);
    if k in hs {
      var j :| 0 <= j < |hs| && hs[j] == k;
      UnflattenGet(hs, row, |hs|, codec, j);
      ParseFlatCell(v, k, codec);
    } else {
      UnflattenGetAbsent(hs, row, |hs|, codec, k);
    }
  }

  /** Flattening an array of objects and unflattening the rows gives back an
      object per element holding exactly the element's values. */
  lemma FlattenUnflatten(json: Json, codec: JsonText)
    requires RoundTrips(codec) && KeepsValues(Elements(json), codec)
    ensures Flatten(json, codec).Ok?
    ensures Unflattenable(Flatten(json, codec).value.data)
    ensures var objs := Unflatten(Flatten(json, codec).value.data, codec);
      && |objs| == |Elements(json)|
      && forall i | 0 <= i < |objs| ::
           objs[i].JObj? && forall k :: Get(objs[i].fields, k) == Get(Elements(json)[i].fields, k)
  {
    var items := Elements(json);
    FlattenObjects(json, codec);
    FlatDataReadBack(items, codec);
  }

  /** The rows flattened from objects, under their header union, read back as
      objects holding exactly the original values. */
  lemma FlatDataReadBack(items: seq<Json>, codec: JsonText)
    requires RoundTrips(codec) && KeepsValues(items, codec)
    ensures var data := FlatData(items, HeaderUnion(ElementFields(items)), codec);
      && Unflattenable(data)
      && |Unflatten(data, codec)| == |items|
      && forall i | 0 <= i < |items| ::
           Unflatten(data, codec)[i].JObj? && forall k :: Get(Unflatten(data, codec)[i].fields, k) == Get(items[i].fields, k)
  {
    var hs := HeaderUnion(ElementFields(items));
    FlatDataUnflattenable(items, hs, codec);
    forall i | 0 <= i < |items|
      ensures forall k :: Get(Unflatten(FlatData(items, hs, codec), codec)[i].fields, k) == Get(items[i].fields, k)
    {
      HeadersCover(items, i);
      ElementReadBack(items, hs, codec, i);
    }
  }

  /** Objects flatten without error, into the header union and their rows. */
  lemma FlattenObjects(json: Json, codec: JsonText)
    requires KeepsValues(Elements(json), codec)
    ensures Flatten(json, codec).Ok?
    ensures Flatten(json, codec).value.data ==
      FlatData(Elements(json), HeaderUnion(ElementFields(Elements(json))), codec)
  {
    var items := Elements(json);
    forall i | 0 <= i < |items| ensures !items[i].JNull? {
      assert KeepsRecord(items[i], codec);
    }
  }

  /** The header union names every key of every object. */
  lemma HeadersCover(items: seq<Json>, i: nat)
    requires i < |items| && items[i].JObj?
    ensures forall q | HasKey(items[i].fields, q) :: q in HeaderUnion(ElementFields(items))
  {
    HeaderUnionKeys(ElementFields(items));
    forall q | HasKey(items[i].fields, q) ensures q in HeaderUnion(ElementFields(items)) {
      assert HasKey(ElementFields(items)[i], q);
    }
  }

  /** Each element of flattened objects is read back with its own values. */
  lemma ElementReadBack(items: seq<Json>, hs: seq<string>, codec: JsonText, i: nat)
    requires RoundTrips(codec) && KeepsValues(items, codec) && NoDuplicates(hs)
    requires i < |items| && forall q | HasKey(items[i].fields, q) :: q in hs
    ensures Unflattenable(FlatData(items, hs, codec))
    ensures forall k :: Get(Unflatten(FlatData(items, hs, codec), codec)[i].fields, k) == Get(items[i].fields, k)
  {
    var data := FlatData(items, hs, codec);
    FlatDataUnflattenable(items, hs, codec);
    assert Texts(data[0]) == hs;
    assert KeepsRecord(items[i], codec);
    assert Unflatten(data, codec)[i].fields == UnflattenFields(hs, data[i + 1], |hs|, codec);
    forall k ensures Get(Unflatten(data, codec)[i].fields, k) == Get(items[i].fields, k) {
      FlatRowReadBack(items[i], hs, codec, k);
    }
  }

  /** Every object read back from a grid holds each key once. */
  lemma UnflattenedUnique(data: seq<seq<Json>>, codec: JsonText, i: nat)
    requires Unflattenable(data) && i < |Unflatten(data, codec)|
    ensures UniqueKeys(Unflatten(data, codec)[i].fields)
  {
    var hs := Texts(data[0]);
    assert Unflatten(data, codec)[i] == JObj(UnflattenFields(hs, data[i + 1], |hs|, codec));
    UnflattenUnique(hs, data[i + 1], |hs|, codec);
  }

  // ---------------------------------------------------------------------------
  // `convertJsonToSpreadsheet`
  // ---------------------------------------------------------------------------

  /** How `convertJsonToSpreadsheet` ends. */
  datatype Outcome =
    | Loaded(grid: SpreadsheetController.Grid)  // `updateFromJson` returned true
    | Rejected                                   // `updateFromJson` returned false
    | NoSpreadsheet                              // no spreadsheet element or controller
    | Alerted(error: Thrown)                     // an exception was caught and alerted

  /** What `convertJsonToSpreadsheet` does with the editor text, `found` telling
      whether the spreadsheet controller was found and `ready` whether its grid
      widget exists. */
  function ConvertSpec(text: string, codec: JsonText, found: bool, ready: bool): (outcome: Outcome)
    ensures outcome == Alerted(SyntaxError) <==> codec.parse(text).None?
    ensures outcome == Alerted(TypeError) <==>
      codec.parse(text).Some? && found && HasNull(Elements(codec.parse(text).value))
    ensures outcome.NoSpreadsheet? <==> codec.parse(text).Some? && !found
  {
    match codec.parse(text)
    case None => Alerted(SyntaxError)
    case Some(json) =>
      if !found then NoSpreadsheet
      else
        match Flatten(json, codec)
        case Failure(e) => Alerted(e)
        case Ok(flat) =>
          FlattenUnflattenable(json, codec);
          match SpreadsheetController.UpdateSpec(JArr(Unflatten(flat.data, codec)), codec, ready)
          case Some(g) => Loaded(g)
          case None => Rejected
  }

  lemma FlattenUnflattenable(json: Json, codec: JsonText)
    requires Flatten(json, codec).Ok?
    ensures Unflattenable(Flatten(json, codec).value.data)
  {
    FlatDataUnflattenable(Elements(json), Flatten(json, codec).value.headers, codec);
  }

  /** `convertJsonToSpreadsheet()`. */
  method ConvertJsonToSpreadsheet(text: string, codec: JsonText, found: bool, ready: bool) returns (outcome: Outcome)
    ensures outcome == ConvertSpec(text, codec, found, ready)
  {
    var parsed := codec.parse(text);
    if parsed.None? {
      return Alerted(SyntaxError);
    }
    if !found {
      return NoSpreadsheet;
    }
    var flat := FlattenJsonToSpreadsheet(parsed.value, codec);
    if flat.Failure? {
      return Alerted(flat.error);
    }
    FlattenUnflattenable(parsed.value, codec);
    var objs := UnflattenJson(flat.value.data, codec);
    var loaded := SpreadsheetController.UpdateFromJson(JArr(objs), codec, ready);
    if loaded.None? {
      return Rejected;
    }
    return Loaded(loaded.value);
  }

  /** Two objects with the same values under every key either both make
      `transformData` throw or neither does. */
  lemma ThrowsAlike(f: Fields, g: Fields)
    requires UniqueKeys(f) && UniqueKeys(g)
    requires forall k :: Get(f, k) == Get(g, k)
    ensures SpreadsheetController.ThrowsFrom(f, 0) <==> SpreadsheetController.ThrowsFrom(g, 0)
  {
    ThrowsCarried(f, g);
    ThrowsCarried(g, f);
  }

  lemma ThrowsCarried(f: Fields, g: Fields)
    requires UniqueKeys(f)
    requires forall k :: Get(f, k) == Get(g, k)
    ensures SpreadsheetController.ThrowsFrom(f, 0) ==> SpreadsheetController.ThrowsFrom(g, 0)
  {
    if SpreadsheetController.ThrowsFrom(f, 0) {
      var j :| 0 <= j < |f| && SpreadsheetController.NullChild(f[j].1);
      GetAt(f, j);
      assert Get(g, f[j].0) == Some(f[j].1);
      var a :| 0 <= a < |g| && g[a] == (f[j].0, f[j].1);
      assert SpreadsheetController.NullChild(g[a].1);
    }
  }

  /** For editor text holding an object or an array of objects whose values
      survive the trip through cells, the grid is loaded exactly when the
      spreadsheet controller is found, its grid exists, there is at least one
      object, and no object holds an array whose first element is null. */
  lemma ConvertLoads(text: string, codec: JsonText, found: bool, ready: bool)
    requires RoundTrips(codec)
    requires codec.parse(text).Some? && KeepsValues(Elements(codec.parse(text).value), codec)
    ensures var items := Elements(codec.parse(text).value);
      ConvertSpec(text, codec, found, ready).Loaded? <==>
        && found && ready && |items| > 0
        && forall i | 0 <= i < |items| :: !SpreadsheetController.ThrowsFrom(items[i].fields, 0)
  {
    var json := codec.parse(text).value;
    var items := Elements(json);
    FlattenUnflatten(json, codec);
    var objs := Unflatten(Flatten(json, codec).value.data, codec);
    ConvertReaches(text, codec, found, ready);
    UnflattenedTransform(json, codec);
    LoadsWhen(objs, items, codec, ready);
  }

  /** Objects that throw exactly where the original objects do are loaded
      exactly when the grid exists, there is one, and none throws. */
  lemma LoadsWhen(objs: seq<Json>, items: seq<Json>, codec: JsonText, ready: bool)
    requires |objs| == |items| && forall i | 0 <= i < |items| :: items[i].JObj?
    requires forall i | 0 <= i < |items| ::
      SpreadsheetController.Transform(objs[i]).Some? <==> !SpreadsheetController.ThrowsFrom(items[i].fields, 0)
    ensures SpreadsheetController.UpdateSpec(JArr(objs), codec, ready).Some? <==>
      ready && |items| > 0 && forall i | 0 <= i < |items| :: !SpreadsheetController.ThrowsFrom(items[i].fields, 0)
  {
    assert SpreadsheetController.ParseInput(JArr(objs), codec) == Some(JArr(objs));
  }

  /** With parseable text holding no null element, the grid is loaded exactly
      when the spreadsheet controller is found and `updateFromJson` accepts the
      unflattened objects. */
  lemma ConvertReaches(text: string, codec: JsonText, found: bool, ready: bool)
    requires codec.parse(text).Some? && Flatten(codec.parse(text).value, codec).Ok?
    ensures Unflattenable(Flatten(codec.parse(text).value, codec).value.data)
    ensures var json := codec.parse(text).value;
      ConvertSpec(text, codec, found, ready).Loaded? <==>
        found && SpreadsheetController.UpdateSpec(JArr(Unflatten(Flatten(json, codec).value.data, codec)), codec, ready).Some?
  {
    FlattenUnflattenable(codec.parse(text).value, codec);
  }

  /** The unflattened objects make `transformData` throw exactly when the
      original objects do. */
  lemma UnflattenedTransform(json: Json, codec: JsonText)
    requires RoundTrips(codec) && KeepsValues(Elements(json), codec)
    ensures Flatten(json, codec).Ok? && Unflattenable(Flatten(json, codec).value.data)
    ensures var objs := Unflatten(Flatten(json, codec).value.data, codec);
      var items := Elements(json);
      |objs| == |items| &&
      forall i | 0 <= i < |items| ::
        SpreadsheetController.Transform(objs[i]).Some? <==> !SpreadsheetController.ThrowsFrom(items[i].fields, 0)
  {
    var items := Elements(json);
    FlattenUnflatten(json, codec);
    var objs := Unflatten(Flatten(json, codec).value.data, codec);
    forall i | 0 <= i < |items|
      ensures SpreadsheetController.Transform(objs[i]).Some? <==> !SpreadsheetController.ThrowsFrom(items[i].fields, 0)
    {
      assert KeepsRecord(items[i], codec);
      UnflattenedUnique(Flatten(json, codec).value.data, codec, i);
      ThrowsAlike(objs[i].fields, items[i].fields);
    }
  }
}

=== FILE: json_values.dfy ===
/** JSON values as the two controllers see them, JavaScript's reading of them
    (truthiness, own properties, property lookup) and the host's JSON text codec. */
module JsonValues {

  datatype Option<+T> = None | Some(value: T)

  /** A JSON value. Numbers are integers; an object keeps its keys in insertion
      order, as a sequence of key/value pairs. */
  datatype Json =
    | JNull
    | JBool(b: bool)
    | JNum(n: int)
    | JStr(s: string)
    | JArr(items: seq<Json>)
    | JObj(fields: seq<(string, Json)>)

  type Fields = seq<(string, Json)>

  /** The empty string: the grid's sentinel for "no value". */
  const EmptyCell: Json := JStr("")

  /** JavaScript truthiness: null, false, 0 and "" are falsy, every array and object is truthy. */
  predicate Truthy(v: Json) {
    match v
    case JNull => false
    case JBool(b) => b
    case JNum(n) => n != 0
    case JStr(s) => s != ""
    case _ => true
  }

  /** A cell is blank when it is "" or null (the tests `cell !== "" && cell !== null`). */
  predicate Blank(v: Json) {
    v == JNull || v == EmptyCell
  }

  /** The keys of an object, in order (`Object.keys`). */
  function Keys(f: Fields): (ks: seq<string>)
    ensures |ks| == |f|
    ensures forall i | 0 <= i < |f| :: ks[i] == f[i].0
  {
    seq(|f|, i requires 0 <= i < |f| => f[i].0)
  }

  predicate UniqueKeys(f: Fields) {
    forall i, j | 0 <= i < j < |f| :: f[i].0 != f[j].0
  }

  predicate HasKey(f: Fields, k: string) {
    exists i | 0 <= i < |f| :: f[i].0 == k
  }

  /** `obj[k]` on an object: the value stored under `k`, if any. */
  function Get(f: Fields, k: string): (r: Option<Json>)
    ensures r.None? <==> !HasKey(f, k)
    ensures r.Some? ==> (k, r.value) in f
  {
    if f == [] then None
    else if f[0].0 == k then Some(f[0].1)
    else
      assert forall i | 1 <= i < |f| :: f[i] == f[1..][i - 1];
      Get(f[1..], k)
  }

  /** `obj[k] = v`: an existing key keeps its place and takes the new value,
      a new key is appended. */
  function Put(f: Fields, k: string, v: Json): (r: Fields)
    ensures Get(r, k) == Some(v)
    ensures forall q {:trigger Get(r, q)} | q != k :: Get(r, q) == Get(f, q)
  {
    if f == [] then [(k, v)]
    else if f[0].0 == k then [(k, v)] + f[1..]
    else
      var rest := Put(f[1..], k, v);
      var r := [f[0]] + rest;
      assert forall q | q != f[0].0 :: Get(r, q) == Get(rest, q);
      r
  }

  /** Assigning an existing key keeps every key in its place. */
  lemma {:induction false} PutExisting(f: Fields, k: string, v: Json)
    requires HasKey(f, k)
    ensures |Put(f, k, v)| == |f| && forall i | 0 <= i < |f| :: Put(f, k, v)[i].0 == f[i].0
  {
    if f[0].0 != k {
      var i :| 0 <= i < |f| && f[i].0 == k;
      assert f[1..][i - 1].0 == k;
      PutExisting(f[1..], k, v);
      var rest := Put(f[1..], k, v);
      assert Put(f, k, v) == [f[0]] + rest;
      forall i | 1 <= i < |f| ensures Put(f, k, v)[i].0 == f[i].0 {
        assert Put(f, k, v)[i] == rest[i - 1] && f[i] == f[1..][i - 1];
      }
    }
  }

  /** Assigning a new key appends it. */
  lemma {:induction false} PutNew(f: Fields, k: string, v: Json)
    requires !HasKey(f, k)
    ensures Put(f, k, v) == f + [(k, v)]
  {
    if f != [] {
      var rest := f[1..];
      assert f[0].0 != k;
      assert !HasKey(rest, k) by {
        forall i | 0 <= i < |rest| ensures rest[i].0 != k {
          assert rest[i] == f[i + 1];
        }
      }
      PutNew(rest, k, v);
      calc {
        Put(f, k, v);
        [f[0]] + Put(rest, k, v);
        [f[0]] + (rest + [(k, v)]);
        { assert [f[0]] + rest == f; }
        f + [(k, v)];
      }
    }
  }

  /** Assignment keeps the keys of an object distinct. */
  lemma PutUnique(f: Fields, k: string, v: Json)
    requires UniqueKeys(f)
    ensures UniqueKeys(Put(f, k, v))
  {
    var r := Put(f, k, v);
    if HasKey(f, k) {
      PutExisting(f, k, v);
    } else {
      PutNew(f, k, v);
      forall i, j | 0 <= i < j < |r| ensures r[i].0 != r[j].0 {
        if j == |f| {
          assert r[i].0 == f[i].0;
        }
      }
    }
  }

  /** `delete obj[k]`. */
  function Delete(f: Fields, k: string): (r: Fields)
    ensures Get(r, k) == None
    ensures forall q {:trigger Get(r, q)} | q != k :: Get(r, q) == Get(f, q)
    ensures forall i | 0 <= i < |r| :: HasKey(f, r[i].0)
  {
    if f == [] then []
    else
      assert forall i | 1 <= i < |f| :: f[i] == f[1..][i - 1];
      var rest := Delete(f[1..], k);
      if f[0].0 == k then rest
      else
        var r := [f[0]] + rest;
        assert forall q | q != f[0].0 :: Get(r, q) == Get(rest, q);
        r
  }

  /** `delete` keeps the other pairs in their order: it distributes over
      concatenation, keeping a single pair exactly when its key differs. */
  lemma {:induction false} DeleteAppend(a: Fields, b: Fields, k: string)
    ensures Delete(a + b, k) == Delete(a, k) + Delete(b, k)
    ensures |a| == 1 ==> Delete(a, k) == if a[0].0 == k then [] else a
  {
    if a != [] {
      assert (a + b)[1..] == a[1..] + b;
      DeleteAppend(a[1..], b, k);
    } else {
      assert a + b == b;
    }
  }

  /** With unique keys, the value at each position is what lookup finds. */
  lemma {:induction false} GetAt(f: Fields, i: int)
    requires UniqueKeys(f) && 0 <= i < |f|
    ensures Get(f, f[i].0) == Some(f[i].1)
  {
    if i > 0 {
      assert f[1..][i - 1] == f[i];
      GetAt(f[1..], i - 1);
    }
  }

  /** The decimal spelling of an array index ("0", "1", ..., "10", ...). */
  function IndexKey(n: nat): (s: string)
    ensures |s| > 0
    ensures forall i | 0 <= i < |s| :: '0' <= s[i] <= '9'
  {
    var digit := ('0' as int + n % 10) as char;
    if n < 10 then [digit] else IndexKey(n / 10) + [digit]
  }

  /** The own enumerable properties of a non-null value, in `Object.keys` order:
      an object's fields, the indices of an array or of a string (one
      character per index), nothing for booleans and numbers. */
  function OwnFields(v: Json): (f: Fields)
    ensures v.JObj? ==> f == v.fields
    ensures v.JNull? || v.JBool? || v.JNum? ==> f == []
    ensures v.JArr? ==> |f| == |v.items| && forall i | 0 <= i < |f| :: f[i] == (IndexKey(i), v.items[i])
  {
    match v
    case JObj(fields) => fields
    case JArr(items) => seq(|items|, i requires 0 <= i < |items| => (IndexKey(i), items[i]))
    case JStr(s) => seq(|s|, i requires 0 <= i < |s| => (IndexKey(i), JStr([s[i]])))
    case _ => []
  }

  /** The value of a string of decimal digits; None when a character is not a digit. */
  function DecimalValue(s: string): (r: Option<nat>)
    ensures s == "" ==> r == None
  {
    if s == "" || !('0' <= s[|s| - 1] <= '9') then None
    else
      var d := s[|s| - 1] as int - '0' as int;
      if |s| == 1 then Some(d)
      else
        match DecimalValue(s[..|s| - 1])
        case Some(p) => Some(p * 10 + d)
        case None => None
  }

  /** The array index a property key names: its canonical decimal spelling. */
  function IndexOfKey(k: string): Option<nat> {
    if |k| > 1 && k[0] == '0' then None else DecimalValue(k)
  }

  /** Property lookup `v[k]` on a non-null value: an object's own field, an
      array's element or a string's character at an index key, and `length`. */
  function Property(v: Json, k: string): (r: Option<Json>)
    ensures v.JObj? ==> r == Get(v.fields, k)
    ensures v.JArr? && k == "length" ==> r == Some(JNum(|v.items|))
    ensures v.JStr? && k == "length" ==> r == Some(JNum(|v.s|))
    ensures v.JBool? || v.JNum? || v.JNull? ==> r == None
  {
    match v
    case JObj(fields) => Get(fields, k)
    case JArr(items) =>
      if k == "length" then Some(JNum(|items|))
      else
        (match IndexOfKey(k)
         case Some(n) => if n < |items| then Some(items[n]) else None
         case None => None)
    case JStr(s) =>
      if k == "length" then Some(JNum(|s|))
      else
        (match IndexOfKey(k)
         case Some(n) => if n < |s| then Some(JStr([s[n]])) else None
         case None => None)
    case _ => None
  }

  /** The first digit of the spelling of a positive index is not 0. */
  lemma {:induction false} IndexKeyLeading(n: nat)
    requires n > 0
    ensures IndexKey(n)[0] != '0'
  {
    if n >= 10 {
      IndexKeyLeading(n / 10);
    }
  }

  /** Reading an index key gives back the index. */
  lemma {:induction false} IndexRoundTrip(n: nat)
    ensures IndexOfKey(IndexKey(n)) == Some(n)
  {
    if n >= 10 {
      IndexRoundTrip(n / 10);
      IndexKeyLeading(n / 10);
      var s := IndexKey(n);
      assert s[..|s| - 1] == IndexKey(n / 10);
      assert DecimalValue(IndexKey(n / 10)) == Some(n / 10);
    }
  }

  /** Every own property, looked up by its key, gives the value listed with it:
      `item[key]` for each `key` of `Object.keys(item)`. */
  lemma OwnPropertyAt(v: Json, i: nat)
    requires !v.JNull? && i < |OwnFields(v)|
    requires v.JObj? ==> UniqueKeys(v.fields)
    ensures Property(v, OwnFields(v)[i].0) == Some(OwnFields(v)[i].1)
  {
    match v
    case JObj(fields) =>
      GetAt(fields, i);
    case JArr(items) =>
      IndexRoundTrip(i);
      assert IndexKey(i) != "length" by { assert IndexKey(i)[0] != 'l'; }
    case JStr(str) =>
      IndexRoundTrip(i);
      assert IndexKey(i) != "length" by { assert IndexKey(i)[0] != 'l'; }
  }

  /** The host's `JSON.stringify` and `JSON.parse` (the latter failing with None). */
  datatype JsonText = JsonText(stringify: Json -> string, parse: string -> Option<Json>)

  /** What the model assumes of the host codec: parsing the text of an array or
      object gives it back, and the empty text does not parse. */
  ghost predicate RoundTrips(codec: JsonText) {
    && codec.parse("") == None
    && forall v: Json | v.JArr? || v.JObj? :: codec.parse(codec.stringify(v)) == Some(v)
  }
}

=== FILE: spreadsheet.dfy ===
/** The spreadsheet controller's two conversions: `convertToJson`, which reads the
    grid (row 0 = headers) back into an array of objects, and `updateFromJson`,
    which lays an array of objects out as a grid. The grid widget itself is not
    modelled: the grid is a value, and whether the widget exists is a flag. */
module SpreadsheetController {
  import opened JsonValues
  import opened Columns

  /** Rows of cells, as the grid widget's `getData()` returns them. */
  type Grid = seq<seq<Json>>

  // ---------------------------------------------------------------------------
  // Grid -> JSON (`getHeaders`, `convertToJson`)
  // ---------------------------------------------------------------------------

  /** `row.filter(header => header != null && header !== "")`. */
  function NonBlankCells(row: seq<Json>): (r: seq<Json>)
    ensures forall i | 0 <= i < |r| :: !Blank(r[i])
    ensures forall x :: x in r <==> x in row && !Blank(x)
    ensures |r| <= |row|
  {
    if row == [] then []
    else
      assert row == [row[0]] + row[1..];
      (if Blank(row[0]) then [] else [row[0]]) + NonBlankCells(row[1..])
  }

  /** `getHeaders`: the non-blank cells of row 0, in order; none without a row 0. */
  function GetHeaders(data: Grid): (headers: seq<Json>)
    ensures data == [] ==> headers == []
    ensures forall i | 0 <= i < |headers| :: !Blank(headers[i])
    ensures forall x :: x in headers <==> data != [] && x in data[0] && !Blank(x)
  {
    if data == [] then [] else NonBlankCells(data[0])
  }

  /** The filter keeps the order of the cells it keeps: it distributes over concatenation. */
  lemma {:induction false} NonBlankCellsAppend(a: seq<Json>, b: seq<Json>)
    ensures NonBlankCells(a + b) == NonBlankCells(a) + NonBlankCells(b)
  {
    if a != [] {
      assert (a + b)[1..] == a[1..] + b;
      NonBlankCellsAppend(a[1..], b);
    } else {
      assert a + b == b;
    }
  }

  /** A row header without blanks is kept whole. */
  lemma {:induction false} NonBlankCellsKeepsAll(row: seq<Json>)
    requires forall i | 0 <= i < |row| :: !Blank(row[i])
    ensures NonBlankCells(row) == row
  {
    if row != [] {
      NonBlankCellsKeepsAll(row[1..]);
    }
  }

  /** `row.some(cell => cell !== "" && cell !== null)`. */
  predicate HasValue(row: seq<Json>) {
    exists i | 0 <= i < |row| :: !Blank(row[i])
  }

  /** Every data row has a cell for every header (the grid widget's rows are full width). */
  predicate RowsCover(data: Grid, width: nat) {
    forall i | 1 <= i < |data| :: width <= |data[i]|
  }

  /** No header that is a plain key names the parent of a child-column header.
      (For such a pair `convertToJson` would index into, or assign a property of,
      the plain cell value.) */
  predicate NoParentClash(names: seq<string>) {
    forall i, j | 0 <= i < |names| && 0 <= j < |names| ::
      ParseHeader(names[j]).Child? ==> names[i] != ParseHeader(names[j]).parent
  }

  /** `obj[parent][0]`: the fields of the child record stored under `parent`
      (none yet when the key is absent). */
  function ChildRecord(obj: Fields, parent: string): Fields {
    match Get(obj, parent)
    case Some(JArr(items)) => if |items| > 0 && items[0].JObj? then items[0].fields else []
    case _ => []
  }

  /** One step of `headers.forEach`: what the cell `value` under `header` adds to `obj`. */
  function ApplyCell(obj: Fields, header: string, value: Json): Fields {
    if header == "" || Blank(value) then obj
    else
      match ParseHeader(header)
      case Plain(name) => Put(obj, name, value)
      case Child(parent, key) =>
        Put(obj, parent, JArr([JObj(Put(ChildRecord(obj, parent), key, value))]))
  }

  /** The object built from the first `n` header/cell pairs of a row. */
  function RowFields(names: seq<string>, row: seq<Json>, n: nat): (obj: Fields)
    requires n <= |names| && n <= |row|
  {
    if n == 0 then [] else ApplyCell(RowFields(names, row, n - 1), names[n - 1], row[n - 1])
  }

  /** The keys of a row object are distinct. */
  lemma {:induction false} RowFieldsUnique(names: seq<string>, row: seq<Json>, n: nat)
    requires n <= |names| && n <= |row|
    ensures UniqueKeys(RowFields(names, row, n))
  {
    if n > 0 {
      var prev := RowFields(names, row, n - 1);
      RowFieldsUnique(names, row, n - 1);
      var header, value := names[n - 1], row[n - 1];
      if header != "" && !Blank(value) {
        match ParseHeader(header)
        case Plain(name) =>
          PutUnique(prev, name, value);
        case Child(parent, key) =>
          PutUnique(prev, parent, JArr([JObj(Put(ChildRecord(prev, parent), key, value))]));
      }
    }
  }

  /** The object a data row contributes: none for a row without a value, and
      none when the object it builds stays empty. */
  function RowObject(names: seq<string>, row: seq<Json>): (r: Option<Json>)
    requires |names| <= |row|
    ensures r.Some? ==> HasValue(row) && r.value.JObj? && r.value.fields != [] && UniqueKeys(r.value.fields)
  {
    if HasValue(row) then
      var obj := RowFields(names, row, |names|);
      RowFieldsUnique(names, row, |names|);
      if obj != [] then Some(JObj(obj)) else None
    else None
  }

  /** The objects rows 1 .. n-1 contribute, in row order. */
  function ConvertRows(names: seq<string>, data: Grid, n: nat): (objs: seq<Json>)
    requires n <= |data| && RowsCover(data, |names|)
    ensures n == 0 ==> objs == []
    ensures n > 0 ==> |objs| <= n - 1
    ensures forall k | 0 <= k < |objs| ::
      objs[k].JObj? && objs[k].fields != [] && UniqueKeys(objs[k].fields)
  {
    if n <= 1 then []
    else
      var prev := ConvertRows(names, data, n - 1);
      match RowObject(names, data[n - 1])
      case Some(obj) => prev + [obj]
      case None => prev
  }

  /** What `convertToJson` computes, stated without the backward scan: one
      object for each data row that yields a non-empty object. */
  function Convert(names: seq<string>, data: Grid): seq<Json>
    requires RowsCover(data, |names|)
  {
    ConvertRows(names, data, |data|)
  }

  /** Rows without a value contribute nothing, wherever they stand. */
  lemma {:induction false} ConvertRowsSkipsEmptyRows(names: seq<string>, data: Grid, m: nat, n: nat)
    requires m <= n <= |data| && RowsCover(data, |names|)
    requires forall i | m <= i < n :: !HasValue(data[i])
    ensures m > 0 ==> ConvertRows(names, data, n) == ConvertRows(names, data, m)
  {
    if m > 0 && n > m {
      ConvertRowsSkipsEmptyRows(names, data, m, n - 1);
    }
  }

  /** Appending rows without a value (the grid's spare rows) does not change the result. */
  lemma ConvertIgnoresTrailingEmptyRows(names: seq<string>, data: Grid, extra: Grid)
    requires |data| > 0 && RowsCover(data, |names|) && RowsCover(data + extra, |names|)
    requires forall i | 0 <= i < |extra| :: !HasValue(extra[i])
    ensures Convert(names, data + extra) == Convert(names, data)
  {
    var all := data + extra;
    forall i | 1 <= i <= |data| ensures ConvertRows(names, all, i) == ConvertRows(names, data, i) {
      ConvertRowsPrefix(names, data, all, i);
    }
    forall i | |data| <= i < |all| ensures !HasValue(all[i]) {
      assert all[i] == extra[i - |data|];
    }
    ConvertRowsSkipsEmptyRows(names, all, |data|, |all|);
  }

  /** Only rows 1 .. n-1 are read: two grids that agree on them give the same objects. */
  lemma {:induction false} ConvertRowsPrefix(names: seq<string>, a: Grid, b: Grid, n: nat)
    requires n <= |a| && n <= |b| && RowsCover(a, |names|) && RowsCover(b, |names|)
    requires forall i | 1 <= i < n :: a[i] == b[i]
    ensures ConvertRows(names, a, n) == ConvertRows(names, b, n)
  {
    if n > 1 {
      ConvertRowsPrefix(names, a, b, n - 1);
    }
  }

  /** Row 0 never yields an object: changing it changes nothing. */
  lemma ConvertIgnoresHeaderRow(names: seq<string>, data: Grid, header: seq<Json>)
    requires |data| > 0 && RowsCover(data, |names|)
    ensures RowsCover([header] + data[1..], |names|)
    ensures Convert(names, [header] + data[1..]) == Convert(names, data)
  {
    var other := [header] + data[1..];
    forall i | 1 <= i < |data| ensures other[i] == data[i] {
      assert other[i] == data[1..][i - 1];
    }
    assert |other| == |data|;
    ConvertRowsPrefix(names, other, data, |data|);
  }

  /** The backward scan for the last row with a value (`lastNonEmptyRowIndex`). */
  method LastNonEmptyRow(data: Grid) returns (last: int)
    ensures -1 <= last < |data|
    ensures data != [] ==> 0 <= last
    ensures forall j | last < j < |data| :: !HasValue(data[j])
    ensures last > 0 ==> HasValue(data[last])
  {
    last := |data| - 1;
    while last > 0 && !HasValue(data[last])
      invariant -1 <= last < |data|
      invariant data != [] ==> 0 <= last
      invariant forall j | last < j < |data| :: !HasValue(data[j])
    {
      last := last - 1;
    }
  }

  /** The `headers.forEach` that fills `obj` for one row. */
  method BuildObject(names: seq<string>, row: seq<Json>) returns (obj: Fields)
    requires |names| <= |row|
    ensures obj == RowFields(names, row, |names|)
  {
    obj := [];
    var index := 0;
    while index < |names|
      invariant 0 <= index <= |names|
      invariant obj == RowFields(names, row, index)
    {
      var header, value := names[index], row[index];
      assert RowFields(names, row, index + 1) == ApplyCell(obj, header, value);
      if header != "" && !Blank(value) {
        match ParseHeader(header) {
          case Plain(name) =>
            obj := Put(obj, name, value);
          case Child(parent, key) =>
            var child := ChildRecord(obj, parent);
            obj := Put(obj, parent, JArr([JObj(Put(child, key, value))]));
        }
      }
      index := index + 1;
    }
  }

  /** A header cell `convertToJson` can use: a falsy one (`0`, `false`, `""`)
      is skipped by `if (!header) return`, a truthy one is matched as a string. */
  predicate UsableHeader(h: Json) {
    h.JStr? || !Truthy(h)
  }

  /** The names `convertToJson` works with: a skipped header becomes the empty
      name, which `ApplyCell` skips too. */
  function HeaderNames(headers: seq<Json>): (names: seq<string>)
    requires forall i | 0 <= i < |headers| :: UsableHeader(headers[i])
    ensures |names| == |headers|
    ensures forall i | 0 <= i < |headers| :: Truthy(headers[i]) ==> headers[i] == JStr(names[i])
    ensures forall i | 0 <= i < |headers| :: !Truthy(headers[i]) ==> names[i] == ""
  {
    var names := seq(|headers|, i requires 0 <= i < |headers| => if headers[i].JStr? then headers[i].s else "");
    assert forall i | 0 <= i < |headers| :: UsableHeader(headers[i]) && names[i] == if headers[i].JStr? then headers[i].s else "";
    names
  }

  /** Over a header row of strings, the names are the strings themselves. */
  lemma HeaderNamesOfTexts(headers: seq<Json>)
    requires forall i | 0 <= i < |headers| :: headers[i].JStr?
    ensures HeaderNames(headers) == Texts(headers)
  {
  }

  /** `convertToJson(data, headers)`. */
  method ConvertToJson(data: Grid, headers: seq<Json>) returns (result: seq<Json>)
    requires forall i | 0 <= i < |headers| :: UsableHeader(headers[i])
    requires RowsCover(data, |headers|)
    requires NoParentClash(HeaderNames(headers))
    ensures result == Convert(HeaderNames(headers), data)
    ensures |result| < |data| || result == []
    ensures forall k | 0 <= k < |result| :: result[k].JObj? && result[k].fields != []
  {
    var names := HeaderNames(headers);
    var last := LastNonEmptyRow(data);
    result := [];
    var i := 1;
    while i <= last
      invariant 1 <= i <= if last < 1 then 1 else last + 1
      invariant data == [] ==> result == []
      invariant data != [] ==> result == ConvertRows(names, data, i)
    {
      var row := data[i];
      if HasValue(row) {
        var obj := BuildObject(names, row);
        if obj != [] {
          result := result + [JObj(obj)];
        }
      }
      i := i + 1;
    }
    if data != [] {
      ConvertRowsSkipsEmptyRows(names, data, i, |data|);
    }
  }

  // ---------------------------------------------------------------------------
  // JSON -> grid (`updateFromJson`, `isReady`)
  // ---------------------------------------------------------------------------

  /** `Array.isArray(value) && value.length > 0`: a value `transformData`
      replaces by the columns of its first element. */
  predicate Expands(v: Json) {
    v.JArr? && |v.items| > 0
  }

  /** An expanding value whose first element is null: `Object.keys(null)` throws. */
  predicate NullChild(v: Json) {
    Expands(v) && v.items[0].JNull?
  }

  /** Some key from position `i` on holds an expanding value with a null first element. */
  predicate ThrowsFrom(item: Fields, i: nat) {
    exists j | i <= j < |item| :: NullChild(item[j].1)
  }

  /** The inner `Object.keys(child).forEach`: each own property of the child
      record is written under its child column. */
  function AddChildColumns(t: Fields, key: string, child: Fields): Fields
    decreases |child|
  {
    if child == [] then t
    else AddChildColumns(Put(t, ChildColumn(key, child[0].0), child[0].1), key, child[1..])
  }

  /** The outer `Object.keys(item).forEach` from the `i`-th key on, `t` being the
      copy built so far; None when it throws. */
  function TransformFrom(item: Fields, t: Fields, i: nat): (r: Option<Fields>)
    requires i <= |item|
    ensures r.None? <==> ThrowsFrom(item, i)
    decreases |item| - i
  {
    if i == |item| then Some(t)
    else
      var key, value := item[i].0, item[i].1;
      if !Expands(value) then TransformFrom(item, t, i + 1)
      else if value.items[0].JNull? then None
      else TransformFrom(item, AddChildColumns(Delete(t, key), key, OwnFields(value.items[0])), i + 1)
  }

  /** `transformData` on one item: a copy of its own properties (`{ ...item }`) in
      which every non-empty array is replaced by one column per property of its
      first element. None when `transformData` throws: for a null item, or for a
      non-empty array whose first element is null. */
  function Transform(item: Json): (r: Option<Fields>)
    ensures r.None? <==> item.JNull? || ThrowsFrom(OwnFields(item), 0)
  {
    if item.JNull? then None else TransformFrom(OwnFields(item), OwnFields(item), 0)
  }

  /** `transformData(parsedData)`: None as soon as one item throws. */
  function TransformAll(items: seq<Json>): (r: Option<seq<Fields>>)
    ensures r.Some? <==> forall i | 0 <= i < |items| :: Transform(items[i]).Some?
    ensures r.Some? ==>
      && |r.value| == |items|
      && forall i | 0 <= i < |items| :: Transform(items[i]) == Some(r.value[i])
  {
    if items == [] then Some([])
    else
      var n := |items| - 1;
      assert forall i | 0 <= i < n :: items[..n][i] == items[i];
      match TransformAll(items[..n])
      case None => None
      case Some(init) =>
        match Transform(items[n])
        case None => None
        case Some(t) => Some(init + [t])
  }

  /** `headers.map(header => obj[header] || "")`: a cell per header, holding the
      object's value when it is truthy and "" otherwise. */
  function UpdateRow(t: Fields, headers: seq<string>): (row: seq<Json>)
    ensures |row| == |headers|
    ensures forall j | 0 <= j < |headers| ::
      if Truthy(row[j]) then Get(t, headers[j]) == Some(row[j]) else row[j] == EmptyCell
    ensures forall j | 0 <= j < |headers| ::
      Get(t, headers[j]).Some? && Truthy(Get(t, headers[j]).value) ==> row[j] == Get(t, headers[j]).value
  {
    seq(|headers|, j requires 0 <= j < |headers| =>
      match Get(t, headers[j])
      case Some(v) => if Truthy(v) then v else EmptyCell
      case None => EmptyCell)
  }

  /** The grid `[headers, ...rows]` for the transformed objects. */
  function LayOut(objs: seq<Fields>): (g: Grid)
    ensures |g| == |objs| + 1 && g[0] == HeaderRow(HeaderUnion(objs))
    ensures forall i | 0 <= i < |objs| :: g[i + 1] == UpdateRow(objs[i], HeaderUnion(objs))
  {
    var headers := HeaderUnion(objs);
    [HeaderRow(headers)] + seq(|objs|, i requires 0 <= i < |objs| => UpdateRow(objs[i], headers))
  }

  /** `JSON.parse(jsonData)` for a string, the value itself otherwise. */
  function ParseInput(input: Json, codec: JsonText): Option<Json> {
    if input.JStr? then codec.parse(input.s) else Some(input)
  }

  /** What `updateFromJson` loads into the grid widget: Some(grid) when it
      returns true, None when it returns false. */
  function UpdateSpec(input: Json, codec: JsonText, ready: bool): (loaded: Option<Grid>)
    ensures loaded.Some? <==>
      && ready
      && ParseInput(input, codec).Some?
      && ParseInput(input, codec).value.JArr?
      && |ParseInput(input, codec).value.items| > 0
      && forall i | 0 <= i < |ParseInput(input, codec).value.items| ::
           Transform(ParseInput(input, codec).value.items[i]).Some?
    ensures loaded.Some? ==>
      var items := ParseInput(input, codec).value.items;
      var headers := HeaderUnion(TransformAll(items).value);
      && |loaded.value| == |items| + 1
      && loaded.value[0] == HeaderRow(headers)
      && (forall i | 0 <= i < |loaded.value| :: |loaded.value[i]| == |headers|)
  {
    match ParseInput(input, codec)
    case None => None
    case Some(parsed) =>
      if !parsed.JArr? || |parsed.items| == 0 then None
      else
        match TransformAll(parsed.items)
        case None => None
        case Some(objs) =>
          if !ready then None
          else
            Some(LayOut(objs))
  }

  /** `transformData` on one item, key by key as `transformData` does it. */
  method TransformItem(item: Json) returns (r: Option<Fields>)
    ensures r == Transform(item)
  {
    if item.JNull? {
      return None;
    }
    var keys := OwnFields(item);
    var transformed := keys;
    var i := 0;
    while i < |keys|
      invariant 0 <= i <= |keys|
      invariant TransformFrom(keys, transformed, i) == Transform(item)
    {
      var key, value := keys[i].0, keys[i].1;
      if Expands(value) {
        var child := value.items[0];
        if child.JNull? {
          return None;
        }
        transformed := Delete(transformed, key);
        var childKeys := OwnFields(child);
        var j := 0;
        ghost var start := transformed;
        while j < |childKeys|
          invariant 0 <= j <= |childKeys|
          invariant AddChildColumns(transformed, key, childKeys[j..]) == AddChildColumns(start, key, childKeys)
        {
          transformed := Put(transformed, ChildColumn(key, childKeys[j].0), childKeys[j].1);
          j := j + 1;
        }
      }
      i := i + 1;
    }
    r := Some(transformed);
  }

  /** `updateFromJson(jsonData)`: returns the grid it loads (`updateFromJson`
      returns true), or None (`updateFromJson` returns false: unparsable text, not a non-empty
      array, an exception while transforming, or no grid widget yet). */
  method UpdateFromJson(input: Json, codec: JsonText, ready: bool) returns (loaded: Option<Grid>)
    ensures loaded == UpdateSpec(input, codec, ready)
  {
    var parsed := ParseInput(input, codec);
    if parsed.None? || !parsed.value.JArr? || |parsed.value.items| == 0 {
      return None;
    }
    var items := parsed.value.items;
    var objs: seq<Fields> := [];
    var i := 0;
    while i < |items|
      invariant 0 <= i <= |items|
      invariant TransformAll(items[..i]) == Some(objs)
    {
      var t := TransformItem(items[i]);
      if t.None? {
        assert TransformAll(items).None?;
        return None;
      }
      assert items[..i + 1][..i] == items[..i];
      objs := objs + [t.value];
      i := i + 1;
    }
    assert items[..i] == items;
    if !ready {
      return None;
    }
    loaded := Some(LayOut(objs));
  }
}

=== FILE: spreadsheet_roundtrip.dfy ===
/** What the spreadsheet controller's two conversions promise together: laying
    an array of records out as a grid (`updateFromJson`) and reading the grid
    back (`getHeaders`, then `convertToJson`) gives back every record that
    leaves a trace, minus its falsy values, with each expanded array reduced to
    the truthy properties of its first element, or dropped when it has none. */
module SpreadsheetRoundTrip {
  import opened JsonValues
  import opened Columns
  import opened SpreadsheetController

  // ---------------------------------------------------------------------------
  // The records the round trip is about
  // ---------------------------------------------------------------------------

  /** A child key the column naming can carry: it starts with a lower-case
      letter and holds no line terminator. */
  predicate Camel(key: string) {
    |key| > 0 && IsLower(key[0]) && NoLineBreak(key)
  }

  /** A first array element `transformData` spreads into child columns without
      throwing, and whose columns decode back: not null, with distinct camel own
      keys. A number, a boolean or an empty string has no own keys, so it spreads
      into no column at all. */
  predicate ChildOk(v: Json) {
    && !v.JNull?
    && UniqueKeys(OwnFields(v))
    && forall i | 0 <= i < |OwnFields(v)| :: Camel(OwnFields(v)[i].0)
  }

  /** A record whose keys are distinct lower-case words and whose non-empty
      arrays each start with an element `ChildOk` accepts. */
  predicate LowerRecord(f: Fields) {
    && UniqueKeys(f)
    && (forall i | 0 <= i < |f| :: IsLowerWord(f[i].0))
    && (forall i | 0 <= i < |f| :: Expands(f[i].1) ==> ChildOk(f[i].1.items[0]))
  }

  /** The child key a header names under `parent`, when it is exactly that
      parent's child column. */
  function ChildKey(q: string, parent: string): Option<string> {
    var p := ParseHeader(q);
    if p.Child? && p.parent == parent && NoLineBreak(q) then Some(p.key) else None
  }

  /** The value `transformData` leaves under `q`: a key holding anything but a
      non-empty array keeps its value, an expanded key is gone, and the child
      column of an expanded key holds the first element's property. */
  function Expected(f: Fields, q: string): Option<Json> {
    match Get(f, q)
    case Some(v) => if Expands(v) then None else Some(v)
    case None =>
      var p := ParseHeader(q);
      if p.Child? && NoLineBreak(q) then
        match Get(f, p.parent)
        case Some(pv) => if Expands(pv) then Get(OwnFields(pv.items[0]), p.key) else None
        case None => None
      else None
  }

  /** Expected, after only the first `i` keys have been visited. */
  function Projected(f: Fields, i: nat, q: string): Option<Json>
    requires i <= |f|
  {
    match Get(f, q)
    case Some(v) => if Expands(v) && HasKey(f[..i], q) then None else Some(v)
    case None =>
      var p := ParseHeader(q);
      if p.Child? && NoLineBreak(q) && HasKey(f[..i], p.parent) then
        match Get(f, p.parent)
        case Some(pv) => if Expands(pv) then Get(OwnFields(pv.items[0]), p.key) else None
        case None => None
      else None
  }

  // ---------------------------------------------------------------------------
  // `transformData` on one record
  // ---------------------------------------------------------------------------

  /** Writing a child record's columns touches exactly the columns of that parent. */
  lemma {:induction false} AddChildColumnsGet(t: Fields, k: string, c: Fields, q: string)
    requires IsLowerWord(k) && UniqueKeys(c) && forall i | 0 <= i < |c| :: Camel(c[i].0)
    ensures Get(AddChildColumns(t, k, c), q) ==
      match ChildKey(q, k)
      case Some(key) => if HasKey(c, key) then Get(c, key) else Get(t, q)
      case None => Get(t, q)
    decreases |c|
  {
    if c != [] {
      var ck, v := c[0].0, c[0].1;
      var rest := c[1..];
      var t1 := Put(t, ChildColumn(k, ck), v);
      assert AddChildColumns(t, k, c) == AddChildColumns(t1, k, rest);
      assert forall i | 0 <= i < |rest| :: rest[i] == c[i + 1];
      AddChildColumnsGet(t1, k, rest, q);
      AddChildColumnStep(t, k, ck, v, q);
      match ChildKey(q, k)
      case Some(key) =>
        if key == ck {
          assert !HasKey(rest, ck);
        } else {
          assert HasKey(c, key) ==> HasKey(rest, key);
        }
      case None =>
    }
  }

  /** Writing one child column changes only the header naming that child key. */
  lemma AddChildColumnStep(t: Fields, k: string, ck: string, v: Json, q: string)
    requires IsLowerWord(k) && Camel(ck)
    ensures Get(Put(t, ChildColumn(k, ck), v), q) == if ChildKey(q, k) == Some(ck) then Some(v) else Get(t, q)
  {
    ParseChildColumn(k, ck);
    if ChildKey(q, k) == Some(ck) {
      ChildColumnOfParse(q);
    }
  }

  lemma PrefixHasKey(f: Fields, i: nat, x: string)
    requires i < |f|
    ensures HasKey(f[..i + 1], x) <==> HasKey(f[..i], x) || f[i].0 == x
  {
    assert f[..i + 1] == f[..i] + [f[i]];
    if HasKey(f[..i + 1], x) && f[i].0 != x {
      var j :| 0 <= j < i + 1 && f[..i + 1][j].0 == x;
      assert f[..i][j].0 == x;
    }
  }

  lemma UniquePrefix(f: Fields, i: nat)
    requires UniqueKeys(f) && i < |f|
    ensures !HasKey(f[..i], f[i].0)
  {
  }

  /** Visiting a key that does not expand changes nothing. */
  lemma ProjectedSkip(f: Fields, i: nat, q: string)
    requires LowerRecord(f) && i < |f| && !Expands(f[i].1)
    ensures Projected(f, i, q) == Projected(f, i + 1, q)
  {
    PrefixHasKey(f, i, q);
    if ParseHeader(q).Child? {
      PrefixHasKey(f, i, ParseHeader(q).parent);
    }
    GetAt(f, i);
  }

  /** Visiting an expanding key deletes it and adds its child columns. */
  lemma ProjectedStep(f: Fields, t: Fields, i: nat, q: string)
    requires LowerRecord(f) && i < |f| && Expands(f[i].1)
    requires forall q' :: Get(t, q') == Projected(f, i, q')
    ensures Get(AddChildColumns(Delete(t, f[i].0), f[i].0, OwnFields(f[i].1.items[0])), q)
      == Projected(f, i + 1, q)
  {
    var key, value := f[i].0, f[i].1;
    var child := OwnFields(value.items[0]);
    assert ChildOk(value.items[0]);
    AddChildColumnsGet(Delete(t, key), key, child, q);
    PrefixHasKey(f, i, q);
    GetAt(f, i);
    UniquePrefix(f, i);
    var p := ParseHeader(q);
    if p.Child? {
      PrefixHasKey(f, i, p.parent);
    }
  }

  lemma {:induction false} TransformFromGet(f: Fields, t: Fields, i: nat)
    requires LowerRecord(f) && i <= |f|
    requires forall q :: Get(t, q) == Projected(f, i, q)
    ensures TransformFrom(f, t, i).Some?
    ensures forall q :: Get(TransformFrom(f, t, i).value, q) == Projected(f, |f|, q)
    decreases |f| - i
  {
    if i < |f| {
      var key, value := f[i].0, f[i].1;
      if !Expands(value) {
        forall q ensures Get(t, q) == Projected(f, i + 1, q) {
          ProjectedSkip(f, i, q);
        }
        TransformFromGet(f, t, i + 1);
      } else {
        assert ChildOk(value.items[0]);
        var t' := AddChildColumns(Delete(t, key), key, OwnFields(value.items[0]));
        forall q ensures Get(t', q) == Projected(f, i + 1, q) {
          ProjectedStep(f, t, i, q);
        }
        TransformFromGet(f, t', i + 1);
      }
    }
  }

  /** `transformData` on a record: it does not throw, and the copy it makes holds
      under each key exactly the Expected value. */
  lemma TransformRecord(f: Fields)
    requires LowerRecord(f)
    ensures Transform(JObj(f)).Some?
    ensures TransformedAs(Transform(JObj(f)).value, f)
  {
    assert f[..0] == [];
    TransformFromGet(f, f, 0);
    assert f[..|f|] == f;
  }

  /** An array whose first element has no own keys (numbers, booleans, an empty
      string) is deleted by `transformData` and gets no column in its place:
      `[{tags: [1, 2, 3]}]` lays out without a `tags` column. */
  lemma ScalarArrayDropped(f: Fields, a: nat, q: string)
    requires LowerRecord(f) && a < |f| && Expands(f[a].1) && OwnFields(f[a].1.items[0]) == []
    requires Camel(q)
    ensures Transform(JObj(f)).Some?
    ensures Get(Transform(JObj(f)).value, f[a].0) == None
    ensures Get(Transform(JObj(f)).value, ChildColumn(f[a].0, q)) == None
  {
    TransformRecord(f);
    GetAt(f, a);
    var t := Transform(JObj(f)).value;
    assert Get(t, f[a].0) == Expected(f, f[a].0);
    ParseChildColumn(f[a].0, q);
    var h := ChildColumn(f[a].0, q);
    assert Get(t, h) == Expected(f, h);
  }

  // ---------------------------------------------------------------------------
  // Reading one row back (`headers.forEach` in `convertToJson`)
  // ---------------------------------------------------------------------------

  /** What the row says about plain key `q`: the last non-blank cell under a
      header that decodes as `q` itself. */
  function PlainValue(names: seq<string>, row: seq<Json>, n: nat, q: string): Option<Json>
    requires n <= |names| && n <= |row|
  {
    if n == 0 then None
    else if names[n - 1] != "" && !Blank(row[n - 1]) && ParseHeader(names[n - 1]) == Plain(q) then Some(row[n - 1])
    else PlainValue(names, row, n - 1, q)
  }

  /** What the row says about child key `key` under `parent`. */
  function ChildValue(names: seq<string>, row: seq<Json>, n: nat, parent: string, key: string): Option<Json>
    requires n <= |names| && n <= |row|
  {
    if n == 0 then None
    else if names[n - 1] != "" && !Blank(row[n - 1]) && ParseHeader(names[n - 1]) == Child(parent, key) then Some(row[n - 1])
    else ChildValue(names, row, n - 1, parent, key)
  }

  /** A key that no header names as a parent holds what the plain headers say. */
  lemma {:induction false} RowFieldsPlain(names: seq<string>, row: seq<Json>, n: nat, q: string)
    requires n <= |names| && n <= |row|
    requires forall j | 0 <= j < n :: !ParentOf(names[j], q)
    ensures Get(RowFields(names, row, n), q) == PlainValue(names, row, n, q)
  {
    if n > 0 {
      assert !ParentOf(names[n - 1], q);
      RowFieldsPlain(names, row, n - 1, q);
      PlainStep(names, row, n, q);
    }
  }

  /** One more cell sets key `q` exactly when its header decodes as `q` itself. */
  lemma PlainStep(names: seq<string>, row: seq<Json>, n: nat, q: string)
    requires 0 < n <= |names| && n <= |row|
    requires !ParentOf(names[n - 1], q)
    requires Get(RowFields(names, row, n - 1), q) == PlainValue(names, row, n - 1, q)
    ensures Get(RowFields(names, row, n), q) == PlainValue(names, row, n, q)
  {
    ApplyCellPlain(RowFields(names, row, n - 1), names[n - 1], row[n - 1], q);
  }

  /** One cell sets key `q` exactly when its header decodes as `q` itself. */
  lemma ApplyCellPlain(obj: Fields, header: string, value: Json, q: string)
    requires ParseHeader(header).Child? ==> ParseHeader(header).parent != q
    ensures Get(ApplyCell(obj, header, value), q) ==
      if header != "" && !Blank(value) && ParseHeader(header) == Plain(q) then Some(value) else Get(obj, q)
  {
  }

  /** A parent that is not itself a header holds one child record, made of what
      its child columns say. */
  lemma {:induction false} RowFieldsChild(names: seq<string>, row: seq<Json>, n: nat, p: string)
    requires n <= |names| && n <= |row|
    requires forall j | 0 <= j < n :: names[j] != p
    ensures var o := RowFields(names, row, n);
      && (forall key :: Get(ChildRecord(o, p), key) == ChildValue(names, row, n, p, key))
      && (Get(o, p).Some? ==> ChildRecord(o, p) != [] && Get(o, p) == Some(JArr([JObj(ChildRecord(o, p))])))
  {
    if n > 0 {
      RowFieldsChild(names, row, n - 1, p);
    }
  }

  lemma {:induction false} PlainValueAt(names: seq<string>, row: seq<Json>, n: nat, j: nat, q: string)
    requires n <= |names| && n <= |row| && NoDuplicates(names)
    requires j < n && names[j] == q && q != "" && ParseHeader(q).Plain?
    ensures PlainValue(names, row, n, q) == if Blank(row[j]) then None else Some(row[j])
  {
    if n - 1 != j {
      PlainValueAt(names, row, n - 1, j, q);
    } else {
      PlainValueAbsent(names, row, n - 1, q);
    }
  }

  lemma {:induction false} PlainValueAbsent(names: seq<string>, row: seq<Json>, n: nat, q: string)
    requires n <= |names| && n <= |row|
    requires forall j | 0 <= j < n :: ParseHeader(names[j]) != Plain(q)
    ensures PlainValue(names, row, n, q) == None
  {
    if n > 0 {
      PlainValueAbsent(names, row, n - 1, q);
    }
  }

  lemma {:induction false} ChildValueAt(names: seq<string>, row: seq<Json>, n: nat, j: nat, p: string, key: string)
    requires n <= |names| && n <= |row| && NoDuplicates(names)
    requires forall i | 0 <= i < |names| :: NoLineBreak(names[i])
    requires j < n && ParseHeader(names[j]) == Child(p, key)
    ensures ChildValue(names, row, n, p, key) == if Blank(row[j]) then None else Some(row[j])
  {
    if n - 1 != j {
      if ParseHeader(names[n - 1]) == Child(p, key) {
        ChildColumnOfParse(names[n - 1]);
        ChildColumnOfParse(names[j]);
      }
      ChildValueAt(names, row, n - 1, j, p, key);
    } else {
      forall i | 0 <= i < n - 1 ensures ParseHeader(names[i]) != Child(p, key) {
        if ParseHeader(names[i]) == Child(p, key) {
          ChildColumnOfParse(names[i]);
          ChildColumnOfParse(names[j]);
        }
      }
      ChildValueAbsent(names, row, n - 1, p, key);
    }
  }

  lemma {:induction false} ChildValueAbsent(names: seq<string>, row: seq<Json>, n: nat, p: string, key: string)
    requires n <= |names| && n <= |row|
    requires forall j | 0 <= j < n :: ParseHeader(names[j]) != Child(p, key)
    ensures ChildValue(names, row, n, p, key) == None
  {
    if n > 0 {
      ChildValueAbsent(names, row, n - 1, p, key);
    }
  }

  /** The cell `updateFromJson` writes is non-blank exactly when the value is truthy. */
  function TruthyPart(o: Option<Json>): Option<Json> {
    match o
    case Some(v) => if Truthy(v) then o else None
    case None => None
  }

  lemma CellValue(t: Fields, hs: seq<string>, j: nat)
    requires j < |hs|
    ensures (if Blank(UpdateRow(t, hs)[j]) then None else Some(UpdateRow(t, hs)[j])) == TruthyPart(Get(t, hs[j]))
  {
  }

  /** Headers the reading side decodes unambiguously: distinct, free of line
      terminators, each a lower-case word or a child column, and no parent
      named by a header of its own. */
  predicate ReadableHeaders(hs: seq<string>) {
    && NoDuplicates(hs)
    && (forall j | 0 <= j < |hs| :: NoLineBreak(hs[j]) && (IsLowerWord(hs[j]) || ParseHeader(hs[j]).Child?))
    && NoParentClash(hs)
  }

  /** Header `h` names a child column under parent `p`. */
  predicate ParentOf(h: string, p: string) {
    ParseHeader(h).Child? && ParseHeader(h).parent == p
  }

  predicate IsParent(hs: seq<string>, p: string) {
    exists j | 0 <= j < |hs| :: ParentOf(hs[j], p)
  }

  /** Reading back a row laid out from `t`: a key no header names as a parent. */
  lemma DecodeRowPlain(hs: seq<string>, t: Fields, q: string)
    requires ReadableHeaders(hs) && forall k | HasKey(t, k) :: k in hs
    requires !IsParent(hs, q)
    ensures Get(RowFields(hs, UpdateRow(t, hs), |hs|), q) == if IsLowerWord(q) then TruthyPart(Get(t, q)) else None
  {
    var row := UpdateRow(t, hs);
    RowFieldsPlain(hs, row, |hs|, q);
    if IsLowerWord(q) && q in hs {
      var j :| 0 <= j < |hs| && hs[j] == q;
      ParseLowerWord(q);
      PlainValueAt(hs, row, |hs|, j, q);
      CellValue(t, hs, j);
    } else {
      forall j | 0 <= j < |hs| ensures ParseHeader(hs[j]) != Plain(q) {
        if hs[j] == q {
          assert !IsLowerWord(hs[j]);
        }
      }
      PlainValueAbsent(hs, row, |hs|, q);
    }
  }

  /** Reading back a row laid out from `t`: a lower-case parent that is not a header. */
  lemma DecodeRowChild(hs: seq<string>, t: Fields, p: string)
    requires ReadableHeaders(hs) && forall k | HasKey(t, k) :: k in hs
    requires IsLowerWord(p) && p !in hs
    ensures var o := RowFields(hs, UpdateRow(t, hs), |hs|);
      && (forall key :: Get(ChildRecord(o, p), key) ==
            if Camel(key) then TruthyPart(Get(t, ChildColumn(p, key))) else None)
      && Get(o, p) == if ChildRecord(o, p) == [] then None else Some(JArr([JObj(ChildRecord(o, p))]))
  {
    var row := UpdateRow(t, hs);
    var o := RowFields(hs, row, |hs|);
    RowFieldsChild(hs, row, |hs|, p);
    forall key ensures Get(ChildRecord(o, p), key) ==
      if Camel(key) then TruthyPart(Get(t, ChildColumn(p, key))) else None
    {
      if Camel(key) {
        var h := ChildColumn(p, key);
        ParseChildColumn(p, key);
        if h in hs {
          var j :| 0 <= j < |hs| && hs[j] == h;
          ChildValueAt(hs, row, |hs|, j, p, key);
          CellValue(t, hs, j);
        } else {
          forall j | 0 <= j < |hs| && ParseHeader(hs[j]) == Child(p, key) ensures false {
            ChildColumnOfParse(hs[j]);
          }
          ChildValueAbsent(hs, row, |hs|, p, key);
        }
      } else {
        ChildValueAbsent(hs, row, |hs|, p, key);
      }
    }
  }

  /** `t` is the copy `transformData` makes of record `f`. */
  ghost predicate TransformedAs(t: Fields, f: Fields) {
    forall q :: Get(t, q) == Expected(f, q)
  }

  /** The header row names none of `f`'s expanded keys and names none of its
      plain keys as a parent. */
  ghost predicate FitsHeaders(f: Fields, hs: seq<string>) {
    forall q | Get(f, q).Some? :: if Expands(Get(f, q).value) then q !in hs else !IsParent(hs, q)
  }

  // ---------------------------------------------------------------------------
  // One record, laid out and read back
  // ---------------------------------------------------------------------------

  /** What reading back the row of record `f` should give under key `q`: a
      truthy plain value as it was, a falsy one dropped; under an expanded key,
      one child record holding the truthy properties of the array's first
      element (no key at all when it has none); nothing under other keys. */
  ghost predicate RestoresKey(o: Fields, f: Fields, q: string) {
    match Get(f, q)
    case None => Get(o, q) == None
    case Some(v) =>
      if !Expands(v) then Get(o, q) == TruthyPart(Some(v))
      else
        && (forall key :: Get(ChildRecord(o, q), key) == TruthyPart(Get(OwnFields(v.items[0]), key)))
        && Get(o, q) == if ChildRecord(o, q) == [] then None else Some(JArr([JObj(ChildRecord(o, q))]))
  }

  ghost predicate Restores(o: Fields, f: Fields) {
    forall q :: RestoresKey(o, f, q)
  }

  /** A value that leaves a trace in the grid: a truthy plain value, or an
      expanded array whose first element has a truthy property. */
  predicate ShowsValue(v: Json) {
    if Expands(v) then exists m | 0 <= m < |OwnFields(v.items[0])| :: Truthy(OwnFields(v.items[0])[m].1)
    else Truthy(v)
  }

  predicate Shows(f: Fields) {
    exists a | 0 <= a < |f| :: ShowsValue(f[a].1)
  }

  lemma KeyIsLowerWord(f: Fields, q: string)
    requires LowerRecord(f) && Get(f, q).Some?
    ensures IsLowerWord(q)
  {
    var a :| 0 <= a < |f| && f[a] == (q, Get(f, q).value);
  }

  lemma FirstKeyFound(f: Fields)
    ensures f == [] || Get(f, f[0].0) == Some(f[0].1)
  {
  }

  /** Only a row with a non-blank cell builds a non-empty object. */
  lemma {:induction false} RowFieldsNonEmpty(names: seq<string>, row: seq<Json>, n: nat)
    requires n <= |names| && n <= |row| && RowFields(names, row, n) != []
    ensures exists j | 0 <= j < n :: !Blank(row[j])
  {
    if ApplyCell(RowFields(names, row, n - 1), names[n - 1], row[n - 1]) == RowFields(names, row, n - 1) {
      RowFieldsNonEmpty(names, row, n - 1);
    }
  }

  /** A key the record does not have is absent from the object read back. */
  lemma RecordRowAbsent(f: Fields, t: Fields, hs: seq<string>, q: string)
    requires LowerRecord(f) && TransformedAs(t, f)
    requires ReadableHeaders(hs) && forall k | HasKey(t, k) :: k in hs
    requires Get(f, q).None?
    ensures Get(RowFields(hs, UpdateRow(t, hs), |hs|), q) == None
  {
    if IsParent(hs, q) {
      AbsentParent(f, t, hs, q);
    } else {
      DecodeRowPlain(hs, t, q);
      if IsLowerWord(q) {
        ParseLowerWord(q);
        assert Get(t, q) == Expected(f, q);
      }
    }
  }

  /** A parent column group whose key the record lacks reads back as nothing. */
  lemma AbsentParent(f: Fields, t: Fields, hs: seq<string>, q: string)
    requires LowerRecord(f) && TransformedAs(t, f)
    requires ReadableHeaders(hs) && forall k | HasKey(t, k) :: k in hs
    requires Get(f, q).None? && IsParent(hs, q)
    ensures Get(RowFields(hs, UpdateRow(t, hs), |hs|), q) == None
  {
    var o := RowFields(hs, UpdateRow(t, hs), |hs|);
    DecodeRowChild(hs, t, q);
    forall key ensures Get(ChildRecord(o, q), key) == None {
      if Camel(key) {
        AbsentChildColumn(f, t, q, key);
      }
    }
    FirstKeyFound(ChildRecord(o, q));
  }

  /** The child column of a key the record lacks holds nothing after `transformData`. */
  lemma AbsentChildColumn(f: Fields, t: Fields, q: string, key: string)
    requires LowerRecord(f) && TransformedAs(t, f)
    requires Get(f, q).None? && IsLowerWord(q) && Camel(key)
    ensures Get(t, ChildColumn(q, key)) == None
  {
    ParseChildColumn(q, key);
    if Get(f, ChildColumn(q, key)).Some? {
      KeyIsLowerWord(f, ChildColumn(q, key));
    }
    assert Get(t, ChildColumn(q, key)) == Expected(f, ChildColumn(q, key));
  }

  /** A plain key comes back with its value when that is truthy. */
  lemma RecordRowPlain(f: Fields, t: Fields, hs: seq<string>, q: string)
    requires LowerRecord(f) && TransformedAs(t, f)
    requires ReadableHeaders(hs) && FitsHeaders(f, hs) && forall k | HasKey(t, k) :: k in hs
    requires Get(f, q).Some? && !Expands(Get(f, q).value)
    ensures Get(RowFields(hs, UpdateRow(t, hs), |hs|), q) == TruthyPart(Get(f, q))
  {
    KeyIsLowerWord(f, q);
    DecodeRowPlain(hs, t, q);
    assert Get(t, q) == Expected(f, q);
  }

  /** An expanded key comes back holding one child record. */
  lemma RecordRowExpanded(f: Fields, t: Fields, hs: seq<string>, q: string)
    requires LowerRecord(f) && TransformedAs(t, f)
    requires ReadableHeaders(hs) && FitsHeaders(f, hs) && forall k | HasKey(t, k) :: k in hs
    requires Get(f, q).Some? && Expands(Get(f, q).value)
    ensures RestoresKey(RowFields(hs, UpdateRow(t, hs), |hs|), f, q)
  {
    var o := RowFields(hs, UpdateRow(t, hs), |hs|);
    var v := Get(f, q).value;
    KeyIsLowerWord(f, q);
    var a :| 0 <= a < |f| && f[a] == (q, v);
    assert ChildOk(v.items[0]);
    var child := OwnFields(v.items[0]);
    DecodeRowChild(hs, t, q);
    forall key ensures Get(ChildRecord(o, q), key) == TruthyPart(Get(child, key)) {
      if Camel(key) {
        ParseChildColumn(q, key);
        if Get(f, ChildColumn(q, key)).Some? {
          KeyIsLowerWord(f, ChildColumn(q, key));
        }
        assert Get(t, ChildColumn(q, key)) == Expected(f, ChildColumn(q, key));
      }
    }
  }

  lemma RecordRowKey(f: Fields, t: Fields, hs: seq<string>, q: string)
    requires LowerRecord(f) && TransformedAs(t, f)
    requires ReadableHeaders(hs) && FitsHeaders(f, hs) && forall k | HasKey(t, k) :: k in hs
    ensures RestoresKey(RowFields(hs, UpdateRow(t, hs), |hs|), f, q)
  {
    match Get(f, q)
    case None => RecordRowAbsent(f, t, hs, q);
    case Some(v) =>
      if Expands(v) {
        RecordRowExpanded(f, t, hs, q);
      } else {
        RecordRowPlain(f, t, hs, q);
      }
  }

  /** Reading back `row` yields an object exactly when record `f` shows a
      value, and that object restores `f`. */
  ghost predicate RowRestores(hs: seq<string>, row: seq<Json>, f: Fields) {
    && |hs| <= |row|
    && var r := RowObject(hs, row);
    && (r.Some? <==> Shows(f))
    && (r.Some? ==> r.value.JObj? && Restores(r.value.fields, f))
  }

  /** The row laid out from a record yields an object exactly when the record
      shows a value, and that object restores the record. */
  lemma RecordRow(f: Fields, t: Fields, hs: seq<string>)
    requires LowerRecord(f) && TransformedAs(t, f)
    requires ReadableHeaders(hs) && FitsHeaders(f, hs) && forall k | HasKey(t, k) :: k in hs
    ensures RowRestores(hs, UpdateRow(t, hs), f)
  {
    var row := UpdateRow(t, hs);
    var o := RowFields(hs, row, |hs|);
    RecordRowRestores(f, t, hs);
    if Shows(f) {
      ShownNotEmpty(o, f);
      RowFieldsNonEmpty(hs, row, |hs|);
    }
    if o != [] {
      NotEmptyShown(o, f);
    }
  }

  /** The object read back from a record's row restores every key. */
  lemma RecordRowRestores(f: Fields, t: Fields, hs: seq<string>)
    requires LowerRecord(f) && TransformedAs(t, f)
    requires ReadableHeaders(hs) && FitsHeaders(f, hs) && forall k | HasKey(t, k) :: k in hs
    ensures Restores(RowFields(hs, UpdateRow(t, hs), |hs|), f)
  {
    forall q ensures RestoresKey(RowFields(hs, UpdateRow(t, hs), |hs|), f, q) {
      RecordRowKey(f, t, hs, q);
    }
  }

  /** An object restoring a record that shows a value is not empty. */
  lemma ShownNotEmpty(o: Fields, f: Fields)
    requires LowerRecord(f) && Restores(o, f) && Shows(f)
    ensures o != []
  {
    var a :| 0 <= a < |f| && ShowsValue(f[a].1);
    var q, v := f[a].0, f[a].1;
    GetAt(f, a);
    assert RestoresKey(o, f, q);
    if Expands(v) {
      assert ChildOk(v.items[0]);
      var child := OwnFields(v.items[0]);
      var m :| 0 <= m < |child| && Truthy(child[m].1);
      GetAt(child, m);
      assert Get(ChildRecord(o, q), child[m].0).Some?;
    }
  }

  /** A non-empty object restoring a record shows that the record has a value. */
  lemma NotEmptyShown(o: Fields, f: Fields)
    requires Restores(o, f) && o != []
    ensures Shows(f)
  {
    var q := o[0].0;
    FirstKeyFound(o);
    assert RestoresKey(o, f, q);
    var v := Get(f, q).value;
    var a :| 0 <= a < |f| && f[a] == (q, v);
    if Expands(v) {
      var cr := ChildRecord(o, q);
      assert cr != [];
      var key := cr[0].0;
      FirstKeyFound(cr);
      var child := OwnFields(v.items[0]);
      var m :| 0 <= m < |child| && child[m] == (key, Get(child, key).value);
      assert ShowsValue(f[a].1);
    }
  }

  // ---------------------------------------------------------------------------
  // An array of records
  // ---------------------------------------------------------------------------

  /** No key expands in one record and holds a plain value in another. */
  ghost predicate ConsistentKinds(fs: seq<Fields>) {
    forall i, k, q | 0 <= i < |fs| && 0 <= k < |fs| && Get(fs[i], q).Some? && Get(fs[k], q).Some? ::
      Expands(Get(fs[i], q).value) == Expands(Get(fs[k], q).value)
  }

  function Records(items: seq<Json>): (fs: seq<Fields>)
    requires forall i | 0 <= i < |items| :: items[i].JObj?
    ensures |fs| == |items| && forall i | 0 <= i < |items| :: items[i] == JObj(fs[i])
  {
    seq(|items|, i requires 0 <= i < |items| => items[i].fields)
  }

  /** The arrays the round trip is about: objects whose keys are lower-case
      words, whose non-empty arrays start with a child record, and which agree
      on which keys expand. */
  ghost predicate Tabular(items: seq<Json>) {
    && (forall i | 0 <= i < |items| :: items[i].JObj? && LowerRecord(items[i].fields))
    && ConsistentKinds(Records(items))
  }

  /** The objects read back restore, in order, the records that show a value. */
  ghost predicate RestoresAll(objs: seq<Json>, fs: seq<Fields>)
    decreases |fs|
  {
    if fs == [] then objs == []
    else
      var n := |fs| - 1;
      if Shows(fs[n]) then
        && objs != []
        && objs[|objs| - 1].JObj?
        && Restores(objs[|objs| - 1].fields, fs[n])
        && RestoresAll(objs[..|objs| - 1], fs[..n])
      else RestoresAll(objs, fs[..n])
  }

  lemma ExpectedKey(f: Fields, q: string)
    requires LowerRecord(f) && Expected(f, q).Some?
    ensures
      || (Get(f, q).Some? && !Expands(Get(f, q).value) && IsLowerWord(q) && ParseHeader(q) == Plain(q))
      || (&& Get(f, q).None? && ParseHeader(q).Child? && NoLineBreak(q)
          && Get(f, ParseHeader(q).parent).Some? && Expands(Get(f, ParseHeader(q).parent).value))
  {
    if Get(f, q).Some? {
      KeyIsLowerWord(f, q);
      ParseLowerWord(q);
    }
  }

  /** Every header comes from some record's transformed copy. */
  lemma HeaderOrigin(fs: seq<Fields>, ts: seq<Fields>, h: string) returns (i: nat)
    requires |ts| == |fs| && forall i | 0 <= i < |fs| :: TransformedAs(ts[i], fs[i])
    requires h in HeaderUnion(ts)
    ensures i < |fs| && Expected(fs[i], h).Some?
  {
    i :| 0 <= i < |ts| && HasKey(ts[i], h);
    assert TransformedAs(ts[i], fs[i]);
    assert Get(ts[i], h).Some?;
  }

  lemma HeaderShape(fs: seq<Fields>, ts: seq<Fields>, h: string)
    requires |ts| == |fs| && (forall i | 0 <= i < |fs| :: LowerRecord(fs[i]) && TransformedAs(ts[i], fs[i]))
    requires h in HeaderUnion(ts)
    ensures NoLineBreak(h) && (IsLowerWord(h) || ParseHeader(h).Child?)
  {
    var i := HeaderOrigin(fs, ts, h);
    ExpectedKey(fs[i], h);
  }

  lemma HeaderNoClash(fs: seq<Fields>, ts: seq<Fields>, h: string, c: string)
    requires |ts| == |fs| && (forall i | 0 <= i < |fs| :: LowerRecord(fs[i]) && TransformedAs(ts[i], fs[i]))
    requires ConsistentKinds(fs)
    requires h in HeaderUnion(ts) && c in HeaderUnion(ts) && ParseHeader(c).Child?
    ensures h != ParseHeader(c).parent
  {
    var p := ParseHeader(c).parent;
    var k := HeaderOrigin(fs, ts, c);
    ExpectedKey(fs[k], c);
    if h == p {
      var m := HeaderOrigin(fs, ts, h);
      ParseLowerWord(p);
      ExpectedKey(fs[m], h);
    }
  }

  lemma RecordFits(fs: seq<Fields>, ts: seq<Fields>, i: nat, q: string)
    requires |ts| == |fs| && (forall i | 0 <= i < |fs| :: LowerRecord(fs[i]) && TransformedAs(ts[i], fs[i]))
    requires ConsistentKinds(fs)
    requires i < |fs| && Get(fs[i], q).Some?
    ensures if Expands(Get(fs[i], q).value) then q !in HeaderUnion(ts) else !IsParent(HeaderUnion(ts), q)
  {
    var hs := HeaderUnion(ts);
    KeyIsLowerWord(fs[i], q);
    ParseLowerWord(q);
    if Expands(Get(fs[i], q).value) {
      if q in hs {
        var m := HeaderOrigin(fs, ts, q);
        ExpectedKey(fs[m], q);
      }
    } else if IsParent(hs, q) {
      var j :| 0 <= j < |hs| && ParseHeader(hs[j]).Child? && ParseHeader(hs[j]).parent == q;
      var k := HeaderOrigin(fs, ts, hs[j]);
      ExpectedKey(fs[k], hs[j]);
    }
  }

  /** The header row of consistent records is readable, names no expanded key,
      and names no plain key as a parent. */
  lemma HeadersOfRecords(fs: seq<Fields>, ts: seq<Fields>)
    requires |ts| == |fs| && (forall i | 0 <= i < |fs| :: LowerRecord(fs[i]) && TransformedAs(ts[i], fs[i]))
    requires ConsistentKinds(fs)
    ensures ReadableHeaders(HeaderUnion(ts))
    ensures forall i | 0 <= i < |fs| :: FitsHeaders(fs[i], HeaderUnion(ts))
  {
    var hs := HeaderUnion(ts);
    forall j | 0 <= j < |hs| ensures NoLineBreak(hs[j]) && (IsLowerWord(hs[j]) || ParseHeader(hs[j]).Child?) {
      HeaderShape(fs, ts, hs[j]);
    }
    forall a, b | 0 <= a < |hs| && 0 <= b < |hs| && ParseHeader(hs[b]).Child?
      ensures hs[a] != ParseHeader(hs[b]).parent
    {
      HeaderNoClash(fs, ts, hs[a], hs[b]);
    }
    forall i | 0 <= i < |fs| ensures FitsHeaders(fs[i], hs) {
      forall q | Get(fs[i], q).Some?
        ensures if Expands(Get(fs[i], q).value) then q !in hs else !IsParent(hs, q)
      {
        RecordFits(fs, ts, i, q);
      }
    }
  }

  lemma {:induction false} ConvertRowsRestore(hs: seq<string>, g: Grid, fs: seq<Fields>, n: nat)
    requires |g| == |fs| + 1 && RowsCover(g, |hs|)
    requires forall i | 0 <= i < |fs| :: RowRestores(hs, g[i + 1], fs[i])
    requires 1 <= n <= |g|
    ensures RestoresAll(ConvertRows(hs, g, n), fs[..n - 1])
  {
    if n > 1 {
      ConvertRowsRestore(hs, g, fs, n - 1);
      assert RowRestores(hs, g[n - 1], fs[n - 2]);
      assert fs[..n - 1][..n - 2] == fs[..n - 2];
    }
  }

  /** Each row `updateFromJson` lays out reads back as its record. */
  lemma RowsRestore(fs: seq<Fields>, ts: seq<Fields>)
    requires |ts| == |fs| && (forall i | 0 <= i < |fs| :: LowerRecord(fs[i]) && TransformedAs(ts[i], fs[i]))
    requires ReadableHeaders(HeaderUnion(ts)) && forall i | 0 <= i < |fs| :: FitsHeaders(fs[i], HeaderUnion(ts))
    ensures RowsCover(LayOut(ts), |HeaderUnion(ts)|)
    ensures forall i | 0 <= i < |fs| :: RowRestores(HeaderUnion(ts), LayOut(ts)[i + 1], fs[i])
  {
    var hs := HeaderUnion(ts);
    forall i | 0 <= i < |fs| ensures RowRestores(hs, LayOut(ts)[i + 1], fs[i]) {
      forall k | HasKey(ts[i], k) ensures k in hs {
      }
      RecordRow(fs[i], ts[i], hs);
    }
  }

  /** A header row without blanks is read back whole by `getHeaders`. */
  lemma HeadersReadBack(g: Grid, hs: seq<string>)
    requires |g| > 0 && g[0] == HeaderRow(hs) && forall j | 0 <= j < |hs| :: hs[j] != ""
    ensures GetHeaders(g) == HeaderRow(hs) && HeaderNames(HeaderRow(hs)) == hs
  {
    NonBlankCellsKeepsAll(g[0]);
    HeaderNamesOfTexts(HeaderRow(hs));
  }

  /** Laying out consistent records and reading the grid back: `updateFromJson`
      accepts them (once the grid widget exists), the grid it loads meets what
      `convertToJson` needs, and `convertToJson` restores, in order, every
      record that shows a value. */
  lemma RoundTrip(items: seq<Json>, codec: JsonText)
    requires |items| > 0 && Tabular(items)
    ensures UpdateSpec(JArr(items), codec, true).Some?
    ensures var g := UpdateSpec(JArr(items), codec, true).value;
      var headers := GetHeaders(g);
      && (forall i | 0 <= i < |headers| :: headers[i].JStr?)
      && RowsCover(g, |headers|)
      && NoParentClash(HeaderNames(headers))
      && RestoresAll(Convert(HeaderNames(headers), g), Records(items))
  {
    TransformTabular(items);
    Accepted(items, codec);
    GridReadBack(Records(items), TransformAll(items).value);
  }

  /** Reading back the grid laid out from transformed records restores them. */
  lemma GridReadBack(fs: seq<Fields>, ts: seq<Fields>)
    requires |ts| == |fs| && (forall i | 0 <= i < |fs| :: LowerRecord(fs[i]) && TransformedAs(ts[i], fs[i]))
    requires ConsistentKinds(fs)
    ensures var g := LayOut(ts);
      var headers := GetHeaders(g);
      && (forall i | 0 <= i < |headers| :: headers[i].JStr?)
      && RowsCover(g, |headers|)
      && NoParentClash(HeaderNames(headers))
      && RestoresAll(Convert(HeaderNames(headers), g), fs)
  {
    HeadersOfRecords(fs, ts);
    var hs := HeaderUnion(ts);
    var g := LayOut(ts);
    forall j | 0 <= j < |hs| ensures hs[j] != "" {
      assert IsLowerWord(hs[j]) || ParseHeader(hs[j]).Child?;
    }
    HeadersReadBack(g, hs);
    RowsRestore(fs, ts);
    ConvertRowsRestore(hs, g, fs, |g|);
    assert fs[..|fs|] == fs;
  }

  /** `transformData` accepts every record of a tabular array. */
  lemma TransformTabular(items: seq<Json>)
    requires Tabular(items)
    ensures TransformAll(items).Some?
    ensures forall i | 0 <= i < |items| ::
      LowerRecord(Records(items)[i]) && TransformedAs(TransformAll(items).value[i], Records(items)[i])
  {
    var fs := Records(items);
    forall i | 0 <= i < |items| ensures Transform(items[i]).Some? {
      TransformRecord(fs[i]);
    }
    var ts := TransformAll(items).value;
    forall i | 0 <= i < |fs| ensures LowerRecord(fs[i]) && TransformedAs(ts[i], fs[i]) {
      TransformRecord(fs[i]);
    }
  }

  /** With the grid widget in place, `updateFromJson` loads a tabular array. */
  lemma Accepted(items: seq<Json>, codec: JsonText)
    requires |items| > 0 && Tabular(items)
    ensures TransformAll(items).Some?
    ensures UpdateSpec(JArr(items), codec, true) == Some(LayOut(TransformAll(items).value))
  {
    TransformTabular(items);
    var input := JArr(items);
    assert ParseInput(input, codec) == Some(input);
    assert input.JArr? && |input.items| > 0;
  }
}
